=== FILE: README.md ===
# Story-point normalisation and fallback layer

This project models, in Dafny, the layer of the story-point estimator that
turns free text, model outputs and error messages into one of the seven
story-point values {1, 2, 3, 5, 8, 13, 21}. It also models the form state
machine that decides which estimate becomes the proposed value. The parts are:

- `fibonacci.dfy`: the clamp-and-scan onto the scale (`Snap`), written once.
  It comes with a declarative meaning (`IsNearest`: the nearest member, ties
  going to the smaller one), an interval table as an independent reference,
  and the imperative loop of the scan.
- `text.dfy`: ASCII models of the string operations the estimator relies on.
  These are `toLowerCase`, `includes`, `split(/\s+/)`, `split(/[.!?]+/)` with
  the blank filter, `match(/\d+/)` and `parseInt`.
- `bert_alternative.dfy`: the text-complexity analyser. It covers keyword
  tiers, the syllable heuristic, Flesch-style readability, clarity,
  confidence, level, and the mapping onto the scale.
- `estimate_bert_route.dfy`: the classifier route. It covers request
  validation, the sentiment-to-points mapping and the rule-based fallback
  scorer.
- `estimate_route.dfy`: the hosted-language-model route. It covers field
  validation, the prompt, the backend dispatch table and normalisation of
  the answer.
- `bert_client.dfy`: the browser-side decoder of classifier labels.
- `ai_analysis_status.dfy`: error classification and render priority of
  the status panel.
- `task_estimator.dfy`: the estimator form as an immutable record with one
  transition per handler, plus two invariants over any sequence of user
  actions.
- `maybe.dfy`: `Option` plus the JavaScript truthiness rules for strings
  and numbers.

The rule-based estimator, the trained model, the text generator, the
classifier, `fetch` and the clock are not modelled. They appear as function
parameters or as datatype values that stand for their answers.

In the rule-based fallback scorer (`EstimateBertRoute.FourComplexWordsShortText`),
a description with four complex words, no simple word and fewer than 20
words scores 3 + 8 - 1 = 10, which snaps to 8.

## Model

| member | source | states |
|---|---|---|
| Fibonacci.ClampToScale | lib/bert-alternative.ts:185 | `Math.max(1, Math.min(21, x))` lies in [1, 21] and leaves values already in that range unchanged |
| Fibonacci.ScanFromKeepsFirstMin | lib/bert-alternative.ts:186-197 | the scan with strict `<` ends on the first member of minimal distance, so ties keep the earlier (smaller) member |
| Fibonacci.ScanFrom | lib/bert-client.ts:59-70 | one pass of the loop from a given index: the result is the current candidate or a later member strictly closer than the current minimum, and it stays on the scale when the candidate is |
| Fibonacci.Closest | lib/bert-client.ts:59-70 | the scan from the first member ends on a member of the scale that is no farther from the value than 1 |
| Fibonacci.ClosestIsNearest | lib/bert-alternative.ts:186-197 | the unclamped scan returns the nearest member of the scale, ties going to the smaller one |
| Fibonacci.NearestPoint | lib/bert-alternative.ts:186-197 | the imperative loop with `closest` and `minDiff` returns the nearest member, ties going to the smaller one |
| Fibonacci.NearestUnique | lib/bert-alternative.ts:184-197 | at most one member is nearest under the tie rule, so every copy of the scan computes the same function |
| Fibonacci.Snap | lib/bert-alternative.ts:184-197 | clamp then scan: the result is on the scale and is the nearest member to the clamped value |
| Fibonacci.SnapMatchesTable | app/api/estimate-bert/route.ts:125-139 | snapping equals the interval table ≤1→1, 2→2, 3-4→3, 5-6→5, 7-10→8, 11-17→13, ≥18→21 for every integer |
| Fibonacci.ClosestIsSnap | lib/bert-client.ts:59-70 | the copy of the scan without a clamp agrees with the clamped `Snap` on every integer |
| Fibonacci.SnapFixesPoints | lib/bert-alternative.ts:184-197 | members of the scale are left unchanged |
| Fibonacci.SnapIdempotent | lib/bert-alternative.ts:184-197 | snapping twice is snapping once |
| Fibonacci.SnapMonotone | lib/bert-alternative.ts:184-197 | a larger score never snaps to a smaller member |
| Fibonacci.SnapInterior | lib/bert-alternative.ts:167-197 | scores from 2 to 15 snap to a member in [2, 13], never 1 or 21 |
| Text.Lower | lib/bert-alternative.ts:10 | lower-casing keeps the length and maps each ASCII capital to its small letter, leaving every other character alone |
| Text.CountPresent | lib/bert-alternative.ts:71-100 | a keyword tier scores at most once per keyword, however often its words occur |
| Text.CountPresentZero | lib/bert-alternative.ts:71-100 | a keyword tier scores nothing exactly when none of its words occurs in the text |
| Text.CountPresentAll | lib/bert-alternative.ts:71-100 | a keyword tier scores fully exactly when all of its words occur in the text |
| Text.SplitRuns | app/api/estimate-bert/route.ts:120 | splitting on runs of separators yields at least one piece, and no piece contains a separator |
| Text.SeparatorRuns | app/api/estimate-bert/route.ts:120 | the runs cut at are one fewer than the pieces, each non-empty and made only of separators |
| Text.SplitRunsRebuilds | app/api/estimate-bert/route.ts:120 | the pieces glued back with the separator runs between them give the original string, so splitting loses and reorders nothing |
| Text.SplitRunsWithoutSeparator | app/api/estimate-bert/route.ts:120 | a string without separators splits into itself alone |
| Text.Words | lib/bert-alternative.ts:34 | `split(/\s+/)` gives at least one piece, and no piece holds whitespace |
| Text.WordsRebuild | lib/bert-alternative.ts:34 | the words with the whitespace runs between them give back the text |
| Text.KeepNonBlank | lib/bert-alternative.ts:35 | the blank filter keeps only pieces that hold a non-whitespace character |
| Text.KeepNonBlankMembers | lib/bert-alternative.ts:35 | a string is kept exactly when it is one of the pieces and holds a non-whitespace character |
| Text.KeepNonBlankAppend | lib/bert-alternative.ts:35 | filtering a concatenation is concatenating the filtered parts, so the kept pieces keep their order |
| Text.KeepNonBlankSingle | lib/bert-alternative.ts:35 | a single piece is kept exactly when it holds a non-whitespace character |
| Text.Sentences | lib/bert-alternative.ts:35 | every sentence has a non-whitespace character, and none holds `.`, `!` or `?` |
| Text.OneSentence | lib/bert-alternative.ts:35 | a text with content and no `.`, `!` or `?` is one sentence, itself |
| Text.DigitPrefix | app/api/estimate/route.ts:53 | the digit run taken is a prefix, made only of digits, and maximal: it stops at the first non-digit |
| Text.FirstDigitAt | app/api/estimate/route.ts:53 | the match of `/\d+/` starts at the first digit of the text, with no digit before it |
| Text.FirstDigitRun | app/api/estimate/route.ts:53 | there is a match exactly when the text holds a digit, and the match is a non-empty run of digits |
| Text.ParseDecimalOfDecimal | app/api/estimate/route.ts:54 | `parseInt` of the decimal rendering of `n` gives back `n` |
| Text.AllDigitsIsFirstRun | app/api/estimate/route.ts:53 | a text made only of digits is its own first match |
| BertAlternative.ComplexityLabel | lib/bert-alternative.ts:19 | the label is `COMPLEXITY_` followed by the level name, so the three labels are distinct |
| BertAlternative.ComplexityScore | lib/bert-alternative.ts:71-84 | the complexity keyword score lies in [-12, 47] |
| BertAlternative.ScopeScore | lib/bert-alternative.ts:87-95 | the scope keyword score lies in [-6, 26] |
| BertAlternative.UncertaintyScore | lib/bert-alternative.ts:98-100 | the uncertainty keyword score lies in [0, 16] |
| BertAlternative.Normalize | lib/bert-alternative.ts:114-116 | a normalised score lies in [0, 1]; it is 0 at or below 0, 1 at or above 10, and score/10 in between |
| BertAlternative.NormalizeMonotone | lib/bert-alternative.ts:114-116 | normalisation never reverses the order of two scores |
| BertAlternative.LettersOnly | lib/bert-alternative.ts:150 | stripping non-letters leaves only a-z and never lengthens the word |
| BertAlternative.LettersOnlyMembers | lib/bert-alternative.ts:150 | a character survives exactly when it occurs in the word and is a letter a-z |
| BertAlternative.LettersOnlyAppend | lib/bert-alternative.ts:150 | cleaning a concatenation is concatenating the cleaned parts, so the letters keep their order |
| BertAlternative.LettersOnlySingle | lib/bert-alternative.ts:150 | a single character is kept exactly when it is a letter a-z |
| BertAlternative.LettersOnlyKeepsLetters | lib/bert-alternative.ts:150 | a word made of letters a-z comes out unchanged |
| BertAlternative.CleanWord | lib/bert-alternative.ts:150 | the cleaned word is no longer than the word and holds only the letters a-z |
| BertAlternative.CleanWordIdempotent | lib/bert-alternative.ts:150 | cleaning a cleaned word changes nothing |
| BertAlternative.VowelCountPositive | lib/bert-alternative.ts:153-154 | a word holding a vowel has a positive vowel count |
| BertAlternative.VowelCount | lib/bert-alternative.ts:153-154 | a word has at most as many vowel matches as letters |
| BertAlternative.EstimateSyllables | lib/bert-alternative.ts:149-161 | a word gets at least one syllable, and exactly one when its letters-only form has at most three letters |
| BertAlternative.SyllableFormula | lib/bert-alternative.ts:153-160 | for longer words the count is max(1, vowels − [ends in "e"] + [contains "le"]), since a word with no vowel neither ends in "e" nor contains "le" |
| BertAlternative.TotalSyllables | lib/bert-alternative.ts:143-145 | the syllable total is at least the number of words |
| BertAlternative.AverageSyllables | lib/bert-alternative.ts:142-147 | the divisor is floored at 1, and a non-empty word list averages at least one syllable per word |
| BertAlternative.AverageWordsPerSentence | lib/bert-alternative.ts:103 | the sentence count is floored at 1: with at most one sentence the average is the word count |
| BertAlternative.LongSentencePenalty | lib/bert-alternative.ts:104 | the penalty is 2 exactly when sentences average more than 20 words, otherwise 0 |
| BertAlternative.Readability | lib/bert-alternative.ts:108 | with at least one syllable per word, the Flesch score is at most 206.835 - 84.6 = 122.235 |
| BertAlternative.ReadabilityDecreasing | lib/bert-alternative.ts:108 | longer sentences or longer words never raise the score |
| BertAlternative.Clarity | lib/bert-alternative.ts:111 | clarity lies in [0, 1]: 0 for readability ≤ 0, 1 for ≥ 100, readability/100 in between |
| BertAlternative.LengthFactor | lib/bert-alternative.ts:123 | the length factor lies in [0, 1], is 1 from 50 words on and is the word count over 50 below that |
| BertAlternative.LengthFactorMonotone | lib/bert-alternative.ts:123 | more words never lower the length factor |
| BertAlternative.Confidence | lib/bert-alternative.ts:124 | confidence always lies in [0.3, 0.9] |
| BertAlternative.ConfidenceMonotone | lib/bert-alternative.ts:123-124 | clearer or longer text never lowers confidence |
| BertAlternative.OverallComplexity | lib/bert-alternative.ts:119-120 | overall complexity lies in [0, 1.1] and exceeds 0.9 only through the long-sentence penalty; it is 0 exactly when every score and the penalty are 0, and 1.1 exactly when every score is 1 and the penalty applies |
| BertAlternative.OverallComplexityMonotone | lib/bert-alternative.ts:119-120 | higher scores or the penalty never lower the overall complexity |
| BertAlternative.OverallComplexityWeights | lib/bert-alternative.ts:119-120 | complexity, scope and uncertainty weigh 0.4, 0.3 and 0.2, and the penalty of 2 adds 0.2 |
| BertAlternative.OverallComplexityExceedsOne | lib/bert-alternative.ts:119-120 | the overall complexity is not confined to [0, 1]: scores of 0.9 or more with the penalty give more than 1 |
| BertAlternative.LevelOf | lib/bert-alternative.ts:127-130 | HIGH iff complexity > 0.7, MEDIUM iff 0.4 < complexity ≤ 0.7, LOW otherwise |
| BertAlternative.ExtractFeatures | lib/bert-alternative.ts:34 | `split(/\s+/)` always yields at least one word, so the word count is never 0 |
| BertAlternative.AnalyzeFeatures | lib/bert-alternative.ts:103-139 | from any keyword scores and counts, every field of the profile is in range, and the level agrees with the complexity |
| BertAlternative.AnalyzeTextComplexity | lib/bert-alternative.ts:33-140 | for any text, complexity is in [0, 1.1], clarity, scope and uncertainty are in [0, 1], confidence is in [0.3, 0.9], and the level agrees with the thresholds |
| BertAlternative.NoKeywordInEmpty | lib/bert-alternative.ts:71-100 | the empty text contains no keyword, since every keyword is non-empty |
| BertAlternative.WordsOfEmpty | lib/bert-alternative.ts:34-35 | "" splits into one empty word and no sentence, and its average syllable count is 1 |
| BertAlternative.AnalyzeEmpty | lib/bert-alternative.ts:33-140 | the empty text causes no division by zero and is analysed as LOW, complexity 0, clarity 1, confidence 0.608 |
| BertAlternative.BasePoints | lib/bert-alternative.ts:167-182 | the base points before clamping lie in [2, 15] |
| BertAlternative.MapAnalysisToPoints | lib/bert-alternative.ts:163-198 | the points are on the scale, never 1 or 21, and are the member nearest the base points |
| BertAlternative.MapAnalysisMonotone | lib/bert-alternative.ts:167-182 | more complexity, scope or uncertainty, or less clarity, never lowers the points |
| BertAlternative.EstimateWithBertAlternative | lib/bert-alternative.ts:9-22 | the analysis of the lower-cased `${title} ${description}` decides everything: the points are the member nearest its base points (never 1 or 21), the confidence is its confidence, the label matches the complexity thresholds, and the method is "text-analysis" |
| EstimateBertRoute.WordCount | app/api/estimate-bert/route.ts:120 | the word count of `split(/\s+/)` is at least 1, even for empty text |
| EstimateBertRoute.LengthAdjustment | app/api/estimate-bert/route.ts:120-122 | the length adjustment is +2 exactly above 100 words, −1 exactly below 20 words, and 0 otherwise |
| EstimateBertRoute.RawFallbackScore | app/api/estimate-bert/route.ts:104-122 | the raw fallback score lies in [-4, 17] |
| EstimateBertRoute.EstimateFallbackPoints | app/api/estimate-bert/route.ts:103-140 | the fallback points are on the scale, never 21, and are the member nearest the clamped raw score |
| EstimateBertRoute.FourComplexWordsShortText | app/api/estimate-bert/route.ts:105-139 | four complex words, no simple word and fewer than 20 words give 3 + 8 − 1 = 10, which snaps to 8 |
| EstimateBertRoute.FallbackMonotoneInComplexWords | app/api/estimate-bert/route.ts:111-139 | with the word count fixed, more complex words and fewer simple words never lower the fallback |
| EstimateBertRoute.SentimentPoints | app/api/estimate-bert/route.ts:47-63 | sentiment points stay in [1, 21] and take only the values 1, 2, 3, 4, 5, 7, 8 and 10 |
| EstimateBertRoute.SentimentMidLength | app/api/estimate-bert/route.ts:51-58 | between 20 and 100 words, "positive" gives 2 (score > 0.8) or 3, and any other label gives 8 or 5 |
| EstimateBertRoute.SentimentCanLeaveScale | app/api/estimate-bert/route.ts:61-63 | the result is not snapped: a confident "positive" over more than 100 words gives 4, which is not on the scale |
| EstimateBertRoute.Post | app/api/estimate-bert/route.ts:2-100 | a body that is not JSON gives the 500 error; a missing title or description gives 400; for a valid request, a failed import gives 503, a failed or empty classification gives the rule-based fallback (confidence 0.6, label "FALLBACK"), and otherwise the top result's label and score give the sentiment points for the context's word count, with that score and label |
| EstimateBertRoute.ModelFailureFallsBack | app/api/estimate-bert/route.ts:40-87 | a classifier that throws or returns nothing still gets a 200 answer with the rule-based fallback |
| EstimateBertRoute.ImportFailureIsUnavailable | app/api/estimate-bert/route.ts:12-24 | a library that fails to load gives 503 |
| EstimateRoute.FillEmbeds | app/api/estimate/route.ts:13-30 | filling the template puts each filler verbatim at a known offset |
| EstimateRoute.Prompt | app/api/estimate/route.ts:13-30 | the prompt quotes the description and the task type verbatim, at the positions of their placeholders |
| EstimateRoute.BackendFor | app/api/estimate/route.ts:34-50 | "groq" selects Groq, "grok" selects xAI, and every other name is unsupported |
| EstimateRoute.GenerationFor | app/api/estimate/route.ts:35-47 | each backend is called with the prompt, temperature 0.2 and at most 10 tokens |
| EstimateRoute.ParsePoints | app/api/estimate/route.ts:53-54 | there is no parsed number exactly when the answer holds no digit |
| EstimateRoute.NormalizeAnswer | app/api/estimate/route.ts:56-67 | the points are always on the scale; a parsed member is kept without a note, and anything else gives 3 with the note |
| EstimateRoute.NormalizeRoundTrip | app/api/estimate/route.ts:53-60 | an answer that is the decimal rendering of a member gives that member back, without a note |
| EstimateRoute.DigitPrefixStopsAtNonDigit | app/api/estimate/route.ts:53 | a digit run followed by the end of the text or a non-digit is matched exactly |
| EstimateRoute.FirstDigitAfterPrefix | app/api/estimate/route.ts:53 | after a digit-free prefix, the match starts where the prefix ends |
| EstimateRoute.FirstNumberWins | app/api/estimate/route.ts:53-54 | only the first number counts: with no digit before it, that number is parsed, whatever follows |
| EstimateRoute.Sent | app/api/estimate/route.ts:13-46 | a complete request to a supported model sends one generation: the chosen backend's model with the prompt that quotes both fields |
| EstimateRoute.Post | app/api/estimate/route.ts:5-72 | a body that is not JSON gives 500; a missing field gives 400; an unsupported model gives 400 "Modelo não suportado"; otherwise a failure of the one generation sent gives 500 and its answer is normalised onto the scale; points come only from complete requests to a supported backend |
| EstimateRoute.PostRoundTrip | app/api/estimate/route.ts:5-60 | a backend that answers the request's generation with a rendered member gets exactly that member back |
| EstimateRoute.BackendFailureIsServerError | app/api/estimate/route.ts:68-71 | a backend failing on the request's generation gives the 500 error payload, never points |
| BertClient.FirstTaggedFrom | lib/bert-client.ts:45 | finds the leftmost position where `LABEL_` is followed by a digit, or reports that there is none |
| BertClient.LabelDigits | lib/bert-client.ts:45-49 | the captured index exists exactly when the label holds a digit; it is the digit run after the first `LABEL_`+digit, and otherwise the first digit run |
| BertClient.PointAtIndex | lib/bert-client.ts:52-57 | indices 0-6 read the scale and any larger index gives 3 |
| BertClient.PointsForLabel | lib/bert-client.ts:54-71 | the points are on the scale; a label with `LABEL_` reads the scale by index, and any other label gets the member nearest the number |
| BertClient.BareNumberIsSnap | lib/bert-client.ts:58-71 | the unclamped nearest-member scan equals `Snap` on every index |
| BertClient.EstimateWithBert | lib/bert-client.ts:33-82 | success happens exactly when the classifier returned a top result whose label holds a digit; the points are then the decoded label's points, and the confidence and label are the top result's; a label without digits, no results or a load failure give their errors |
| BertClient.LabelWithoutDigitsFails | lib/bert-client.ts:45-49 | a top label with no digit gives the error "Formato de label inesperado: " followed by the label |
| BertClient.DigitsHaveNoTag | lib/bert-client.ts:56 | a label made only of digits takes the nearest-member branch |
| BertClient.TagLabelIndex | lib/bert-client.ts:45 | the label `LABEL_k` decodes to the index `k` |
| BertClient.TagLabelRoundTrip | lib/bert-client.ts:45-57 | class `k`'s label gives the k-th member, and 3 when `k` is past the end of the scale |
| BertClient.NumberLabelIsSnapped | lib/bert-client.ts:45-71 | a bare number as label is snapped onto the scale |
| BertClient.PointLabelRoundTrip | lib/bert-client.ts:45-71 | a member of the scale written as a bare-number label decodes to itself |
| AiAnalysisStatus.Classify | components/ai-analysis-status.tsx:30-50 | the first matching group decides: credit-limit marks, then rate-limit marks, then "API_ERROR"/"503", otherwise GENERIC (each kind stated as an if-and-only-if) |
| AiAnalysisStatus.CreditBeatsRate | components/ai-analysis-status.tsx:35-44 | a message with both credit and rate marks is a credit-limit error |
| AiAnalysisStatus.CreditCodeIsCreditLimit | components/ai-analysis-status.tsx:35-39 | any message containing "CREDIT_LIMIT_EXCEEDED" is a credit-limit error |
| AiAnalysisStatus.UserMessage | components/ai-analysis-status.tsx:31-49 | GENERIC shows the error text itself, and each other kind shows its fixed message |
| AiAnalysisStatus.ErrorPanelFor | components/ai-analysis-status.tsx:28-78 | retry is impossible exactly for credit-limit errors; the button shows exactly when retry is possible and a handler was given; tips appear only for credit and rate limits |
| AiAnalysisStatus.FixedMessagesHideText | components/ai-analysis-status.tsx:35-50 | two errors of the same non-generic kind render the same panel |
| AiAnalysisStatus.ModelName | components/ai-analysis-status.tsx:17-92 | the backend is shown as "Groq" exactly for "groq", and as "Grok" otherwise |
| AiAnalysisStatus.PointsUnit | components/ai-analysis-status.tsx:87 | the unit is "ponto" exactly for one point and "pontos" for every other count |
| AiAnalysisStatus.Render | components/ai-analysis-status.tsx:16-95 | loading wins, then a non-empty error, then non-null points, then nothing (each state stated as an if-and-only-if); loading names the model, and the points carry the model's name and the "ponto"/"pontos" unit |
| AiAnalysisStatus.ErrorHidesPoints | components/ai-analysis-status.tsx:17-81 | an error hides available points, and loading hides both |
| TaskEstimator.Proposal | components/task-estimator.tsx:103-116 | the proposal differs from the rule estimate only when a model exists, its prediction succeeded and was non-zero; in that case it is the prediction |
| TaskEstimator.Estimate | components/task-estimator.tsx:95-121 | empty title or description is a no-op; otherwise the rule estimate is set, the AI points and error are cleared, the proposal follows the model-first rule, and no other field changes |
| TaskEstimator.AiErrorText | components/task-estimator.tsx:145-153 | the route's `userMessage` wins; otherwise 429 and 503 have their own texts and any other status falls back to `error`, then to a generic text |
| TaskEstimator.StartAi | components/task-estimator.tsx:123-128 | empty description or task type is a no-op; otherwise the model is remembered, loading starts and the AI error is cleared |
| TaskEstimator.ResolveAi | components/task-estimator.tsx:130-165 | loading ends on every path; success sets both the AI points and the proposal to the returned points; failure sets the error and changes nothing else |
| TaskEstimator.AiFailureKeepsPoints | components/task-estimator.tsx:145-162 | a non-ok status or a connection error leaves the proposal and the AI points unchanged |
| TaskEstimator.Retry | components/task-estimator.tsx:169-173 | retry re-issues the request with the last model only when one was chosen |
| TaskEstimator.Accuracy | components/task-estimator.tsx:230 | the simulated accuracy lies in [0.7, 0.95], is 0.7 plus the task count over 200 below 50 tasks, and is 0.95 from 50 tasks on |
| TaskEstimator.AccuracyMonotone | components/task-estimator.tsx:230 | more tasks never lower the simulated accuracy |
| TaskEstimator.TrainModelWithTasks | components/task-estimator.tsx:215-241 | loading ends; a trained model replaces the old one with stats (n, now, accuracy(n)); otherwise the model and stats are unchanged |
| TaskEstimator.RetrainIfEnough | components/task-estimator.tsx:195-209 | training happens exactly when the list has at least 5 tasks |
| TaskEstimator.HandleTrainModel | components/task-estimator.tsx:255-259 | manual training needs at least 5 tasks and keeps the task list |
| TaskEstimator.ResetForm | components/task-estimator.tsx:243-253 | the inputs and every estimate are cleared, the task type goes back to "feature", and the history, model and tabs are kept |
| TaskEstimator.ResetIdempotent | components/task-estimator.tsx:243-253 | resetting twice is resetting once |
| TaskEstimator.NewTask | components/task-estimator.tsx:178-189 | the saved task records the proposal as its final points and `estimatedPoints \|\| 0` as its rule estimate |
| TaskEstimator.Save | components/task-estimator.tsx:175-199 | a save needs a title, a description and a proposal; apart from the model fields the result is exactly the reset form with one new task in front of the history; the model changes only on a successful retrain from 5 tasks on |
| TaskEstimator.Import | components/task-estimator.tsx:201-213 | apart from the model fields only the history (imported tasks in front, in their own order), the reported count and the tab change; the model changes only on a successful retrain from 5 tasks on |
| TaskEstimator.StepKeepsProposalOnScale | components/task-estimator.tsx:95-259 | if the estimators and answers are on the scale, every handler keeps the proposal on the scale |
| TaskEstimator.RunKeepsProposalOnScale | components/task-estimator.tsx:95-259 | the same holds over any sequence of user actions |
| TaskEstimator.StepKeepsHistory | components/task-estimator.tsx:191-202 | no handler drops or reorders a saved task; tasks are only added in front |
| TaskEstimator.RunKeepsHistory | components/task-estimator.tsx:191-202 | the same holds over any sequence of user actions |
| TaskEstimator.Step | components/task-estimator.tsx:95-259 | the history never shrinks; only saving and importing change it, and only those and training change the model |
| TaskEstimator.Run | components/task-estimator.tsx:95-259 | over a sequence of actions the history never shrinks, and without a save or an import it stays as it was |
| Maybe.OrElse | components/task-estimator.tsx:148-152 | `a \|\| b` on strings yields `a` when it is a non-empty string, and `b` otherwise |

## Left out

- Network and SDK calls are parameters. This covers `fetch`, `generateText` with the Groq and xAI clients, the transformers `pipeline`, and the module-level pipeline cache. Their answers are datatype values such as `Completion`, `ClassifierRun` and `AiResponse`.
- The rule-based estimator (`estimateStoryPoints`) and the TensorFlow model (`trainModel`, `predictStoryPoints`, `saveModel`, `loadModel`) are not part of this model. They are function parameters or outcome values.
- `localStorage`, `useEffect`, the five-second timer that clears the import notice, and the initial model and history load are left out. They are persistence and scheduling, not decisions.
- Floating point is not modelled: readability, clarity, confidence and accuracy are exact `real`s, not IEEE doubles.
- BertAlternative.OverallComplexity: the weighted sum is exact, so at a threshold it can differ from the double the program computes. Normalised scores 0.4, 0.2 and 0.4 give exactly 0.3 here but 0.30000000000000004 in doubles; 0.6, 1.0 and 0.8 give exactly 0.7 here but 0.7000000000000001 in doubles.
- BertAlternative.LevelOf: because of the exact sum above, an overall complexity of exactly 0.7 is MEDIUM here, where the program's slightly larger double makes it HIGH. The same happens at 0.4. Normalised complexity 0.8, scope 0 and uncertainty 0.4 with no penalty (for example "complex algorithm database moderate maybe unclear") sum to exactly 0.4 here, which is LOW. In doubles the sum is 0.4000000000000001, which is MEDIUM. The points do not change, because the base points have no tier at 0.4.
- BertAlternative.EstimateWithBertAlternative: at the ties above its label follows `LevelOf`, so the text in the example gives `LOW` here where the program says `MEDIUM`.
- BertAlternative.MapAnalysisToPoints: at those ties the complexity tier can be one step lower than the program's, so the model gives 2 where the program gives 3, and 8 where the program gives 13.
- Regular expressions and case mapping are modelled for ASCII only. `\s` is the six ASCII whitespace characters, and `toLowerCase` maps only A-Z.
- Numbers are unbounded integers. `parseInt` of a very long digit run is exact here, where JavaScript rounds it to a double.
- BertClient.PointsForLabel: the model scans exact integers, while JavaScript scans doubles, so for bare-number labels of 2^56 (about 7.2e16) and more the two can differ. Up to 2^56 + 23 the program also gives 21. From 2^56 + 24 to just below 2^57 (about 1.4e17) the doubles round some distances together, and the strict `<` keeps 13 or 8: "100000000000000000" gives 13, and "72057594037927977" gives 8. From 2^57 to 2^58 + 32 the program gives 21 again, as the model does. From 2^58 + 33 (about 2.9e17) on, it gives 1: "300000000000000000", "1000000000000000000" and a label that parses to `Infinity` all give 1. In each of these cases the model's exact scan gives 21.
- TaskEstimator.Estimate: the asynchronous ML prediction is one step, so the rule estimate and the proposal appear together.
- TaskEstimator.TrainModelWithTasks: training is one atomic step, so the moment with `isModelLoading` true is not visible; only its end state is stated.
- TaskEstimator.ResolveAi: a response whose body is not JSON counts as a connection failure. The points of a successful answer are taken as given: `Option<int>`, not checked further.
- TaskEstimator.Save: `Date.now()` and the ISO timestamp are a `Clock` parameter. The retraining clock is the save's own timestamp.
- EstimateRoute.Post and EstimateBertRoute.Post: a request body that is JSON but not an object with string fields is not modelled. Such fields are `None` (missing) or strings.
- EstimateBertRoute.SentimentPoints: the result is deliberately not snapped, as in the route, so it can leave the scale. `SentimentCanLeaveScale` shows this. The route's own comment calls the mapping a simplified approach, so this is reported as behaviour, not as a defect.
- BertClient.EstimateWithBert: a load failure carries the error of the failed load, whose text is not modelled.
- The static pages, the fallback notice component and the build configuration have no decision logic and are not modelled.
- AiAnalysisStatus.Render: icons, styles and the exact markup are not modelled; only which panel is shown and what it says.

=== FILE: ai_analysis_status.dfy ===
/**
 * The status panel of the hosted-model estimate: which of its four states
 * is shown, and how an error message is classified into a kind, a message
 * for the user and whether a retry is offered.
 */
module AiAnalysisStatus {
  import opened Maybe
  import opened Text

  datatype ErrorKind = CreditLimit | RateLimit | ApiError | Generic

  const CreditLimitMessage := "Limite de créditos da API atingido. Use a estimativa baseada em regras por enquanto."
  const RateLimitMessage := "Muitas solicitações. Aguarde alguns segundos e tente novamente."
  const ApiErrorMessage := "Serviço temporariamente indisponível. Tente novamente em alguns instantes."
  const CreditLimitTip := "A estimativa baseada em regras continua funcionando normalmente e oferece boa precisão."
  const RateLimitTip := "Aguarde 10-30 segundos antes de tentar novamente."

  /** The substrings that mark each kind, in the order they are tried. */
  const CreditLimitMarks: seq<string> := ["CREDIT_LIMIT_EXCEEDED", "créditos", "spending limit"]
  const RateLimitMarks: seq<string> := ["RATE_LIMIT_EXCEEDED", "rate limit"]
  const ApiErrorMarks: seq<string> := ["API_ERROR", "503"]

  /** Some entry of `marks` occurs in `error`. */
  predicate Mentions(error: string, marks: seq<string>) {
    exists k :: 0 <= k < |marks| && Contains(error, marks[k])
  }

  /** The first group of marks that the message mentions decides its kind. */
  function Classify(error: string): (kind: ErrorKind)
    ensures kind == CreditLimit <==> Mentions(error, CreditLimitMarks)
    ensures kind == RateLimit <==> !Mentions(error, CreditLimitMarks) && Mentions(error, RateLimitMarks)
    ensures kind == ApiError <==>
      !Mentions(error, CreditLimitMarks) && !Mentions(error, RateLimitMarks) && Mentions(error, ApiErrorMarks)
    ensures kind == Generic <==>
      !Mentions(error, CreditLimitMarks) && !Mentions(error, RateLimitMarks) && !Mentions(error, ApiErrorMarks)
  {
    if Mentions(error, CreditLimitMarks) then CreditLimit
    else if Mentions(error, RateLimitMarks) then RateLimit
    else if Mentions(error, ApiErrorMarks) then ApiError
    else Generic
  }

  /** A message that names both a credit problem and a rate problem is a credit problem. */
  lemma CreditBeatsRate(error: string)
    requires Mentions(error, CreditLimitMarks) && Mentions(error, RateLimitMarks)
    ensures Classify(error) == CreditLimit
  {
  }

  /** A message with the exact credit-limit code is a credit problem, whatever else it says. */
  lemma CreditCodeIsCreditLimit(before: string, after: string)
    ensures Classify(before + "CREDIT_LIMIT_EXCEEDED" + after) == CreditLimit
  {
    var e := before + "CREDIT_LIMIT_EXCEEDED" + after;
    assert e[|before|..|before| + |"CREDIT_LIMIT_EXCEEDED"|] == "CREDIT_LIMIT_EXCEEDED";
    assert OccursAt(e, CreditLimitMarks[0], |before|);
  }

  /** The error panel: its kind, the message shown, and the retry affordances. */
  datatype ErrorPanel = ErrorPanel(kind: ErrorKind, message: string, canRetry: bool, showRetry: bool, tip: Option<string>)

  /** The message shown: the error itself for a generic one, a fixed text otherwise. */
  function UserMessage(kind: ErrorKind, error: string): (m: string)
    ensures kind == Generic ==> m == error
    ensures kind == CreditLimit ==> m == CreditLimitMessage
    ensures kind == RateLimit ==> m == RateLimitMessage
    ensures kind == ApiError ==> m == ApiErrorMessage
  {
    match kind
    case CreditLimit => CreditLimitMessage
    case RateLimit => RateLimitMessage
    case ApiError => ApiErrorMessage
    case Generic => error
  }

  /** `hasRetry` says whether the parent passed an `onRetry` handler. */
  function ErrorPanelFor(error: string, hasRetry: bool): (p: ErrorPanel)
    ensures p.kind == Classify(error)
    ensures !p.canRetry <==> p.kind == CreditLimit
    ensures p.showRetry <==> p.canRetry && hasRetry
    ensures p.kind == Generic ==> p.message == error
    ensures p.kind == CreditLimit ==> p.message == CreditLimitMessage && p.tip == Some(CreditLimitTip)
    ensures p.kind == RateLimit ==> p.message == RateLimitMessage && p.tip == Some(RateLimitTip)
    ensures p.kind == ApiError ==> p.message == ApiErrorMessage
    ensures p.tip.Some? <==> p.kind == CreditLimit || p.kind == RateLimit
  {
    var kind := Classify(error);
    var canRetry := kind != CreditLimit;
    var tip :=
      match kind
      case CreditLimit => Some(CreditLimitTip)
      case RateLimit => Some(RateLimitTip)
      case _ => None;
    ErrorPanel(kind, UserMessage(kind, error), canRetry, canRetry && hasRetry, tip)
  }

  /** Two errors of the same non-generic kind show exactly the same panel. */
  lemma FixedMessagesHideText(e1: string, e2: string, hasRetry: bool)
    requires Classify(e1) == Classify(e2) != Generic
    ensures ErrorPanelFor(e1, hasRetry) == ErrorPanelFor(e2, hasRetry)
  {
  }

  // ---------------------------------------------------------------------
  // Render priority

  datatype StatusView =
    | Analysing(modelName: string)
    | ShowError(panel: ErrorPanel)
    | ShowPoints(modelName: string, points: int, unit: string)
    | Nothing

  /** The label of the backend: "Groq" for "groq", "Grok" for anything else. */
  function ModelName(model: Option<string>): (n: string)
    ensures n == "Groq" <==> model == Some("groq")
    ensures n == "Grok" <==> model != Some("groq")
  {
    if model == Some("groq") then "Groq" else "Grok"
  }

  /** "ponto" for exactly one point, "pontos" otherwise. */
  function PointsUnit(points: int): (u: string)
    ensures u == "ponto" <==> points == 1
    ensures u == "pontos" <==> points != 1
  {
    if points == 1 then "ponto" else "pontos"
  }

  /** Loading first, then a non-empty error, then points, then nothing. */
  function Render(isLoading: bool, model: Option<string>, points: Option<int>, error: Option<string>, hasRetry: bool): (v: StatusView)
    ensures v.Analysing? <==> isLoading
    ensures v.ShowError? <==> !isLoading && TruthyString(error)
    ensures v.ShowPoints? <==> !isLoading && !TruthyString(error) && points.Some?
    ensures v.Nothing? <==> !isLoading && !TruthyString(error) && points.None?
    ensures v.ShowError? ==> v.panel == ErrorPanelFor(error.value, hasRetry)
    ensures v.ShowPoints? ==> v.points == points.value && v.modelName == ModelName(model)
    ensures v.ShowPoints? ==> v.unit == PointsUnit(points.value)
    ensures v.Analysing? ==> v.modelName == ModelName(model)
  {
    if isLoading then Analysing(ModelName(model))
    else if TruthyString(error) then ShowError(ErrorPanelFor(error.value, hasRetry))
    else if points.Some? then ShowPoints(ModelName(model), points.value, PointsUnit(points.value))
    else Nothing
  }

  /** An error hides the points, and loading hides both. */
  lemma ErrorHidesPoints(model: Option<string>, points: int, error: string, hasRetry: bool)
    requires error != ""
    ensures Render(false, model, Some(points), Some(error), hasRetry).ShowError?
    ensures Render(true, model, Some(points), Some(error), hasRetry).Analysing?
  {
  }
}

=== FILE: bert_alternative.dfy ===
/**
 * The dependency-free text analyser that stands in for a BERT model:
 * keyword tiers, a vowel-count syllable heuristic and a Flesch-style
 * readability score are combined into a complexity profile, which is mapped
 * onto the story-point scale.
 */
module BertAlternative {
  import opened Text
  import opened Fibonacci
  import opened Classifier

  datatype Level = Low | Medium | High

  /** The profile of one text; every field but `complexity` lies in [0, 1]. */
  datatype TextAnalysis = TextAnalysis(
    complexity: real,
    clarity: real,
    scope: real,
    uncertainty: real,
    confidence: real,
    level: Level)

  datatype BertAlternativeResult = BertAlternativeResult(
    points: int,
    confidence: real,
    labelText: string,
    estimationMethod: string)

  function LevelName(l: Level): string {
    match l
    case Low => "LOW"
    case Medium => "MEDIUM"
    case High => "HIGH"
  }

  /** `COMPLEXITY_${level}`; the three labels differ in length. */
  function ComplexityLabel(l: Level): (s: string)
    ensures s == "COMPLEXITY_" + LevelName(l)
    ensures l == Low <==> |s| == 14
    ensures l == High <==> |s| == 15
    ensures l == Medium <==> |s| == 17
  {
    "COMPLEXITY_" + LevelName(l)
  }

  // ---------------------------------------------------------------------
  // Keyword tiers

  const HighComplexity: seq<string> :=
    ["complex", "complicated", "difficult", "challenging", "intricate", "sophisticated", "advanced"]
  const MediumComplexity: seq<string> := ["moderate", "standard", "typical", "normal", "regular", "common"]
  const LowComplexity: seq<string> := ["simple", "easy", "basic", "straightforward", "minimal", "quick"]
  const Technical: seq<string> :=
    ["algorithm", "architecture", "integration", "optimization", "security",
     "performance", "scalability", "database", "api", "framework"]
  const Uncertain: seq<string> := ["maybe", "possibly", "might", "could", "unclear", "unknown", "tbd", "investigate"]
  const LargeScope: seq<string> := ["system", "platform", "application", "entire", "complete", "full", "comprehensive"]
  const MediumScope: seq<string> := ["module", "component", "feature", "section", "part"]
  const SmallScope: seq<string> := ["button", "field", "label", "icon", "text", "color"]

  /** +3 per high, +1 per medium, -2 per low complexity word, +2 per technical term. */
  function ComplexityScore(text: string): (s: int)
    ensures -12 <= s <= 47
  {
    3 * CountPresent(text, HighComplexity) + CountPresent(text, MediumComplexity)
    - 2 * CountPresent(text, LowComplexity) + 2 * CountPresent(text, Technical)
  }

  /** +3 per large, +1 per medium, -1 per small scope word. */
  function ScopeScore(text: string): (s: int)
    ensures -6 <= s <= 26
  {
    3 * CountPresent(text, LargeScope) + CountPresent(text, MediumScope) - CountPresent(text, SmallScope)
  }

  /** +2 per uncertainty word. */
  function UncertaintyScore(text: string): (s: int)
    ensures 0 <= s <= 16
  {
    2 * CountPresent(text, Uncertain)
  }

  /** `Math.max(0, Math.min(10, score)) / 10`. */
  function Normalize(score: int): (r: real)
    ensures 0.0 <= r <= 1.0
    ensures score <= 0 ==> r == 0.0
    ensures score >= 10 ==> r == 1.0
    ensures 0 <= score <= 10 ==> r * 10.0 == score as real
  {
    (if score < 0 then 0 else if score > 10 then 10 else score) as real / 10.0
  }

  lemma NormalizeMonotone(x: int, y: int)
    requires x <= y
    ensures Normalize(x) <= Normalize(y)
  {
  }

  // ---------------------------------------------------------------------
  // Syllables

  predicate IsVowel(c: char) {
    c == 'a' || c == 'e' || c == 'i' || c == 'o' || c == 'u' || c == 'y'
  }

  /** Keeps the letters a-z: `replace(/[^a-z]/g, "")`. */
  function LettersOnly(s: string): (r: string)
    ensures |r| <= |s|
    ensures forall i :: 0 <= i < |r| ==> IsLowerLetter(r[i])
  {
    if |s| == 0 then ""
    else if IsLowerLetter(s[0]) then [s[0]] + LettersOnly(s[1..])
    else LettersOnly(s[1..])
  }

  /** The kept characters are exactly the letters a-z of the word. */
  lemma {:induction false} LettersOnlyMembers(s: string)
    ensures forall c :: c in LettersOnly(s) <==> c in s && IsLowerLetter(c)
  {
    if |s| > 0 {
      LettersOnlyMembers(s[1..]);
      assert s == [s[0]] + s[1..];
    }
  }

  /**
   * The letters are kept in order: cleaning works character by character,
   * keeping exactly the letters a-z.
   */
  lemma {:induction false} LettersOnlyAppend(a: string, b: string)
    ensures LettersOnly(a + b) == LettersOnly(a) + LettersOnly(b)
  {
    if |a| == 0 {
      assert a + b == b;
    } else {
      assert (a + b)[0] == a[0];
      assert (a + b)[1..] == a[1..] + b;
      LettersOnlyAppend(a[1..], b);
    }
  }

  /** A single character is kept exactly when it is a letter a-z. */
  lemma LettersOnlySingle(c: char)
    ensures LettersOnly([c]) == (if IsLowerLetter(c) then [c] else "")
  {
    assert [c][1..] == "";
  }

  /** A word of letters a-z is already clean. */
  lemma {:induction false} LettersOnlyKeepsLetters(s: string)
    requires forall i :: 0 <= i < |s| ==> IsLowerLetter(s[i])
    ensures LettersOnly(s) == s
  {
    if |s| > 0 {
      LettersOnlyKeepsLetters(s[1..]);
    }
  }

  /** `word.toLowerCase().replace(/[^a-z]/g, "")`. */
  function CleanWord(word: string): (r: string)
    ensures |r| <= |word|
    ensures forall i :: 0 <= i < |r| ==> IsLowerLetter(r[i])
  {
    LettersOnly(Lower(word))
  }

  /** Cleaning a cleaned word changes nothing. */
  lemma CleanWordIdempotent(word: string)
    ensures CleanWord(CleanWord(word)) == CleanWord(word)
  {
    var c := CleanWord(word);
    assert Lower(c) == c;
    LettersOnlyKeepsLetters(c);
  }

  /** Number of matches of `/[aeiouy]/g`. */
  function VowelCount(w: string): (n: nat)
    ensures n <= |w|
  {
    if |w| == 0 then 0 else (if IsVowel(w[0]) then 1 else 0) + VowelCount(w[1..])
  }

  lemma {:induction false} VowelCountPositive(w: string, i: nat)
    requires i < |w| && IsVowel(w[i])
    ensures VowelCount(w) > 0
  {
    if i > 0 {
      VowelCountPositive(w[1..], i - 1);
    }
  }

  /** The syllable heuristic: short words, single vowels, a silent final "e" and "le". */
  function EstimateSyllables(word: string): (n: int)
    ensures n >= 1
    ensures |CleanWord(word)| <= 3 ==> n == 1
  {
    var w := CleanWord(word);
    if |w| <= 3 then 1
    else
      var vowels := VowelCount(w);
      var count := if vowels > 0 then vowels else 1;
      var count := if EndsWith(w, "e") then count - 1 else count;
      var count := if Contains(w, "le") && |w| > 2 then count + 1 else count;
      Max(1, count)
  }

  /**
   * For a cleaned word longer than three letters the heuristic is
   * max(1, vowels - [ends with "e"] + [contains "le"]): a word without
   * vowels can neither end in "e" nor contain "le".
   */
  lemma SyllableFormula(word: string)
    requires |CleanWord(word)| > 3
    ensures var w := CleanWord(word);
      EstimateSyllables(word)
      == Max(1, VowelCount(w) - (if EndsWith(w, "e") then 1 else 0) + (if Contains(w, "le") then 1 else 0))
  {
    var w := CleanWord(word);
    if EndsWith(w, "e") {
      VowelCountPositive(w, |w| - 1);
    }
    if Contains(w, "le") {
      var i :| 0 <= i <= |w| && OccursAt(w, "le", i);
      assert w[i + 1] == "le"[1];
      VowelCountPositive(w, i + 1);
    }
  }

  function TotalSyllables(words: seq<string>): (n: int)
    ensures n >= |words|
  {
    if |words| == 0 then 0 else EstimateSyllables(words[0]) + TotalSyllables(words[1..])
  }

  /** Mean syllables per word; the word count is floored at 1. */
  function AverageSyllables(words: seq<string>): (r: real)
    ensures |words| > 0 ==> r >= 1.0
  {
    var total := TotalSyllables(words) as real;
    var count := (if |words| > 1 then |words| else 1) as real;
    assert |words| > 0 ==> total >= count;
    DivideAtLeastOne(total, count);
    total / count
  }

  lemma DivideAtLeastOne(a: real, b: real)
    requires b > 0.0
    ensures a >= b ==> a / b >= 1.0
  {
    if a >= b {
      assert a / b * b == a;
    }
  }

  // ---------------------------------------------------------------------
  // Structure, readability and confidence

  /** Words per sentence; the sentence count is floored at 1. */
  function AverageWordsPerSentence(wordCount: nat, sentenceCount: nat): (r: real)
    ensures r >= 0.0
    ensures sentenceCount <= 1 ==> r == wordCount as real
  {
    wordCount as real / (if sentenceCount > 1 then sentenceCount else 1) as real
  }

  /** 2 when sentences average more than 20 words, otherwise 0. */
  function LongSentencePenalty(avgWordsPerSentence: real): (p: int)
    ensures p == 0 || p == 2
    ensures p == 2 <==> avgWordsPerSentence > 20.0
  {
    if avgWordsPerSentence > 20.0 then 2 else 0
  }

  function Readability(avgWordsPerSentence: real, avgSyllablesPerWord: real): (r: real)
    ensures avgWordsPerSentence >= 0.0 && avgSyllablesPerWord >= 1.0 ==> r <= 122.235
  {
    206.835 - 1.015 * avgWordsPerSentence - 84.6 * avgSyllablesPerWord
  }

  /** Longer sentences or longer words never raise the readability score. */
  lemma ReadabilityDecreasing(w1: real, s1: real, w2: real, s2: real)
    requires w1 <= w2 && s1 <= s2
    ensures Readability(w2, s2) <= Readability(w1, s1)
  {
  }

  /** Readability clamped to [0, 100] and scaled to [0, 1]. */
  function Clarity(readability: real): (c: real)
    ensures 0.0 <= c <= 1.0
    ensures readability <= 0.0 ==> c == 0.0
    ensures readability >= 100.0 ==> c == 1.0
    ensures 0.0 <= readability <= 100.0 ==> c * 100.0 == readability
  {
    (if readability < 0.0 then 0.0 else if readability > 100.0 then 100.0 else readability) / 100.0
  }

  /** `Math.min(1, wordCount / 50)`. */
  function LengthFactor(wordCount: nat): (f: real)
    ensures 0.0 <= f <= 1.0
    ensures wordCount >= 50 ==> f == 1.0
    ensures wordCount < 50 ==> f * 50.0 == wordCount as real
  {
    if wordCount >= 50 then 1.0 else wordCount as real / 50.0
  }

  /** More words never lower the length factor. */
  lemma LengthFactorMonotone(m: nat, n: nat)
    requires m <= n
    ensures LengthFactor(m) <= LengthFactor(n)
  {
  }

  /** `Math.max(0.3, Math.min(0.9, clarity * 0.6 + lengthFactor * 0.4))`. */
  function Confidence(clarity: real, lengthFactor: real): (c: real)
    ensures 0.3 <= c <= 0.9
  {
    var raw := clarity * 0.6 + lengthFactor * 0.4;
    if raw < 0.3 then 0.3 else if raw > 0.9 then 0.9 else raw
  }

  /** Clearer and longer text never lowers the confidence. */
  lemma ConfidenceMonotone(c1: real, f1: real, c2: real, f2: real)
    requires c1 <= c2 && f1 <= f2
    ensures Confidence(c1, f1) <= Confidence(c2, f2)
  {
  }

  /** Weighted sum of the normalised scores and the long-sentence penalty. */
  function OverallComplexity(complexity: real, scope: real, uncertainty: real, penalty: int): (r: real)
    requires 0.0 <= complexity <= 1.0 && 0.0 <= scope <= 1.0 && 0.0 <= uncertainty <= 1.0
    requires penalty == 0 || penalty == 2
    ensures 0.0 <= r <= 1.1
    ensures penalty == 0 ==> r <= 0.9
    ensures r == 0.0 <==> complexity == 0.0 && scope == 0.0 && uncertainty == 0.0 && penalty == 0
    ensures r == 1.1 <==> complexity == 1.0 && scope == 1.0 && uncertainty == 1.0 && penalty == 2
  {
    complexity * 0.4 + scope * 0.3 + uncertainty * 0.2 + penalty as real * 0.1
  }

  /** Higher scores or the penalty never lower the overall complexity. */
  lemma OverallComplexityMonotone(c1: real, s1: real, u1: real, p1: int, c2: real, s2: real, u2: real, p2: int)
    requires 0.0 <= c1 <= c2 <= 1.0 && 0.0 <= s1 <= s2 <= 1.0 && 0.0 <= u1 <= u2 <= 1.0
    requires (p1 == 0 || p1 == 2) && (p2 == 0 || p2 == 2) && p1 <= p2
    ensures OverallComplexity(c1, s1, u1, p1) <= OverallComplexity(c2, s2, u2, p2)
  {
  }

  /**
   * The weights: raising the complexity, scope or uncertainty score by `d`
   * raises the sum by 0.4, 0.3 or 0.2 times `d`, and the penalty adds 0.2.
   */
  lemma OverallComplexityWeights(c: real, s: real, u: real, d: real)
    requires 0.0 <= c && 0.0 <= s && 0.0 <= u && 0.0 <= d
    requires c + d <= 1.0 && s + d <= 1.0 && u + d <= 1.0
    ensures OverallComplexity(c + d, s, u, 0) == OverallComplexity(c, s, u, 0) + 0.4 * d
    ensures OverallComplexity(c, s + d, u, 0) == OverallComplexity(c, s, u, 0) + 0.3 * d
    ensures OverallComplexity(c, s, u + d, 0) == OverallComplexity(c, s, u, 0) + 0.2 * d
    ensures OverallComplexity(c, s, u, 2) == OverallComplexity(c, s, u, 0) + 0.2
  {
  }

  /** The overall complexity is not confined to [0, 1]: a long-sentence text can exceed 1. */
  lemma OverallComplexityExceedsOne(c: real, s: real, u: real)
    requires 0.9 <= c <= 1.0 && 0.9 <= s <= 1.0 && 0.9 <= u <= 1.0
    ensures OverallComplexity(c, s, u, 2) > 1.0
  {
  }

  function LevelOf(complexity: real): (l: Level)
    ensures l == High <==> complexity > 0.7
    ensures l == Medium <==> 0.4 < complexity <= 0.7
    ensures l == Low <==> complexity <= 0.4
  {
    if complexity > 0.7 then High else if complexity > 0.4 then Medium else Low
  }

  /** What the analysis reads off the text before any arithmetic. */
  datatype TextFeatures = TextFeatures(
    wordCount: nat,
    sentenceCount: nat,
    avgSyllables: real,
    complexityScore: int,
    scopeScore: int,
    uncertaintyScore: int)

  function ExtractFeatures(text: string): (f: TextFeatures)
    ensures f.wordCount >= 1
  {
    var words := Words(text);
    TextFeatures(
      |words|, |Sentences(text)|, AverageSyllables(words),
      ComplexityScore(text), ScopeScore(text), UncertaintyScore(text))
  }

  /** The arithmetic of the analysis, on the features of a text. */
  function AnalyzeFeatures(f: TextFeatures): (a: TextAnalysis)
    ensures 0.0 <= a.complexity <= 1.1
    ensures 0.0 <= a.clarity <= 1.0 && 0.0 <= a.scope <= 1.0 && 0.0 <= a.uncertainty <= 1.0
    ensures 0.3 <= a.confidence <= 0.9
    ensures a.level == High <==> a.complexity > 0.7
    ensures a.level == Medium <==> 0.4 < a.complexity <= 0.7
    ensures a.level == Low <==> a.complexity <= 0.4
  {
    var avgWords := AverageWordsPerSentence(f.wordCount, f.sentenceCount);
    var penalty := LongSentencePenalty(avgWords);
    var clarity := Clarity(Readability(avgWords, f.avgSyllables));
    var complexity := Normalize(f.complexityScore);
    var scope := Normalize(f.scopeScore);
    var uncertainty := Normalize(f.uncertaintyScore);
    var overall := OverallComplexity(complexity, scope, uncertainty, penalty);
    TextAnalysis(
      overall, clarity, scope, uncertainty,
      Confidence(clarity, LengthFactor(f.wordCount)),
      LevelOf(overall))
  }

  /** The whole analysis of an (already lower-cased) text. */
  function AnalyzeTextComplexity(text: string): (a: TextAnalysis)
    ensures 0.0 <= a.complexity <= 1.1
    ensures 0.0 <= a.clarity <= 1.0 && 0.0 <= a.scope <= 1.0 && 0.0 <= a.uncertainty <= 1.0
    ensures 0.3 <= a.confidence <= 0.9
    ensures a.level == High <==> a.complexity > 0.7
    ensures a.level == Medium <==> 0.4 < a.complexity <= 0.7
    ensures a.level == Low <==> a.complexity <= 0.4
  {
    AnalyzeFeatures(ExtractFeatures(text))
  }

  /** The empty text contains no keyword of any tier. */
  lemma NoKeywordInEmpty(keywords: seq<string>)
    requires forall k :: 0 <= k < |keywords| ==> |keywords[k]| > 0
    ensures CountPresent("", keywords) == 0
  {
    forall k | 0 <= k < |keywords|
      ensures !Contains("", keywords[k])
    {
    }
    CountPresentZero("", keywords);
  }

  lemma WordsOfEmpty()
    ensures Words("") == [""]
    ensures Sentences("") == []
    ensures AverageSyllables(Words("")) == 1.0
  {
    assert Words("") == [""];
    assert SplitRuns("", IsSentenceEnd) == [""];
    assert !HasContent("");
    assert CleanWord("") == "";
    assert TotalSyllables([""]) == 1;
  }

  lemma ComplexityWordsAbsentFromEmpty()
    ensures CountPresent("", HighComplexity) == 0 && CountPresent("", MediumComplexity) == 0
  {
    NoKeywordInEmpty(HighComplexity);
    NoKeywordInEmpty(MediumComplexity);
  }

  lemma SimpleAndTechnicalWordsAbsentFromEmpty()
    ensures CountPresent("", LowComplexity) == 0 && CountPresent("", Technical) == 0
  {
    NoKeywordInEmpty(LowComplexity);
    NoKeywordInEmpty(Technical);
  }

  lemma ComplexityScoreOfEmpty()
    ensures ComplexityScore("") == 0
  {
    ComplexityWordsAbsentFromEmpty();
    SimpleAndTechnicalWordsAbsentFromEmpty();
  }

  lemma ScopeWordsAbsentFromEmpty()
    ensures CountPresent("", LargeScope) == 0 && CountPresent("", MediumScope) == 0
  {
    NoKeywordInEmpty(LargeScope);
    NoKeywordInEmpty(MediumScope);
  }

  lemma ScopeScoreOfEmpty()
    ensures ScopeScore("") == 0
  {
    ScopeWordsAbsentFromEmpty();
    NoKeywordInEmpty(SmallScope);
  }

  lemma UncertaintyScoreOfEmpty()
    ensures UncertaintyScore("") == 0
  {
    NoKeywordInEmpty(Uncertain);
  }

  /**
   * Empty text needs no division by zero (both counts are floored at 1) and
   * comes out LOW, fully clear, with confidence 0.6 + 0.4 / 50.
   */
  lemma AnalyzeEmpty()
    ensures AnalyzeTextComplexity("").level == Low
    ensures AnalyzeTextComplexity("").complexity == 0.0
    ensures AnalyzeTextComplexity("").clarity == 1.0
    ensures AnalyzeTextComplexity("").confidence == 0.608
  {
    WordsOfEmpty();
    ComplexityScoreOfEmpty();
    ScopeScoreOfEmpty();
    UncertaintyScoreOfEmpty();
    assert ExtractFeatures("") == TextFeatures(1, 0, 1.0, 0, 0, 0);
    assert AverageWordsPerSentence(1, 0) == 1.0;
    assert Readability(1.0, 1.0) == 121.22;
    assert Clarity(121.22) == 1.0;
    assert LengthFactor(1) == 0.02;
    assert Confidence(1.0, 0.02) == 0.608;
  }

  // ---------------------------------------------------------------------
  // Mapping to points

  /** The base points before snapping: complexity tier plus adjustments. */
  function BasePoints(a: TextAnalysis): (b: int)
    ensures 2 <= b <= 15
  {
    var tier := if a.complexity > 0.7 then 8 else if a.complexity > 0.5 then 5 else if a.complexity > 0.3 then 3 else 2;
    var scopeBonus := if a.scope > 0.7 then 3 else if a.scope > 0.4 then 1 else 0;
    var uncertaintyBonus := if a.uncertainty > 0.5 then 2 else 0;
    var clarityBonus := if a.clarity < 0.3 then 2 else if a.clarity < 0.5 then 1 else 0;
    tier + scopeBonus + uncertaintyBonus + clarityBonus
  }

  /** Base points clamped and snapped to the nearest member of the scale. */
  function MapAnalysisToPoints(a: TextAnalysis): (p: int)
    ensures IsPoint(p)
    ensures p != 1 && p != 21
    ensures IsNearest(BasePoints(a), p)
  {
    SnapInterior(BasePoints(a));
    Snap(BasePoints(a))
  }

  /** More complexity, scope or uncertainty, or less clarity, never lowers the points. */
  lemma MapAnalysisMonotone(a: TextAnalysis, b: TextAnalysis)
    requires a.complexity <= b.complexity && a.scope <= b.scope && a.uncertainty <= b.uncertainty
    requires a.clarity >= b.clarity
    ensures MapAnalysisToPoints(a) <= MapAnalysisToPoints(b)
  {
    assert BasePoints(a) <= BasePoints(b);
    SnapMonotone(BasePoints(a), BasePoints(b));
  }

  /**
   * The analyser's estimate for a title and a description: the analysis of
   * the lower-cased context, its points, its confidence and its level.
   */
  function EstimateWithBertAlternative(title: string, description: string): (r: BertAlternativeResult)
    ensures IsPoint(r.points) && r.points != 1 && r.points != 21
    ensures 0.3 <= r.confidence <= 0.9
    ensures r.estimationMethod == "text-analysis"
    ensures var a := AnalyzeTextComplexity(Lower(Context(title, description)));
      && IsNearest(BasePoints(a), r.points)
      && r.points == MapAnalysisToPoints(a)
      && r.confidence == a.confidence
      && (r.labelText == "COMPLEXITY_HIGH" <==> a.complexity > 0.7)
      && (r.labelText == "COMPLEXITY_MEDIUM" <==> 0.4 < a.complexity <= 0.7)
      && (r.labelText == "COMPLEXITY_LOW" <==> a.complexity <= 0.4)
  {
    var analysis := AnalyzeTextComplexity(Lower(Context(title, description)));
    BertAlternativeResult(
      MapAnalysisToPoints(analysis),
      analysis.confidence,
      ComplexityLabel(analysis.level),
      "text-analysis")
  }
}

=== FILE: bert_client.dfy ===
/**
 * The browser-side classifier client: decoding the top label of the
 * classifier into a story-point estimate.
 */
module BertClient {
  import opened Maybe
  import opened Text
  import opened Fibonacci
  import opened Classifier

  /** What running the classifier on the context gave. */
  datatype ClassifierRun =
    | LoadFailed(error: string)             // loading the library or the model threw
    | Returned(results: seq<Prediction>)

  datatype ClientEstimate =
    | Estimated(points: int, confidence: real, labelText: string)
    | Failure(message: string)

  const NoResultsError := "Modelo não retornou resultados válidos"
  const UnexpectedLabelPrefix := "Formato de label inesperado: "
  const Tag := "LABEL_"
  const DefaultPoints := 3

  // ---------------------------------------------------------------------
  // Locating the class index in a label

  /** The regular expression `LABEL_(\d+)` matches at position `i`. */
  predicate TaggedAt(s: string, i: nat) {
    OccursAt(s, Tag, i) && i + |Tag| < |s| && IsDigit(s[i + |Tag|])
  }

  /** The leftmost position at or after `i` where `LABEL_(\d+)` matches. */
  function FirstTaggedFrom(s: string, i: nat): (r: Option<nat>)
    requires i <= |s|
    ensures r.None? ==> forall j :: i <= j <= |s| ==> !TaggedAt(s, j)
    ensures r.Some? ==> i <= r.value && TaggedAt(s, r.value)
    ensures r.Some? ==> forall j :: i <= j < r.value ==> !TaggedAt(s, j)
    decreases |s| - i
  {
    if i == |s| then None
    else if TaggedAt(s, i) then Some(i)
    else FirstTaggedFrom(s, i + 1)
  }

  /**
   * The first capture group of `label.match(/LABEL_(\d+)/) || label.match(/(\d+)/)`:
   * the digits after the first `LABEL_` that is followed by a digit, and
   * failing that the first run of digits anywhere.
   */
  function LabelDigits(name: string): (r: Option<string>)
    ensures r.None? <==> forall j :: 0 <= j < |name| ==> !IsDigit(name[j])
    ensures r.Some? ==> |r.value| > 0 && AllDigits(r.value)
    ensures FirstTaggedFrom(name, 0).Some? ==>
      r == Some(DigitPrefix(name[FirstTaggedFrom(name, 0).value + |Tag|..]))
    ensures FirstTaggedFrom(name, 0).None? ==> r == FirstDigitRun(name)
  {
    match FirstTaggedFrom(name, 0)
    case None => FirstDigitRun(name)
    case Some(i) =>
      var d := DigitPrefix(name[i + |Tag|..]);
      assert name[i + |Tag|..][0] == name[i + |Tag|];
      Some(d)
  }

  /** `fibonacciPoints[labelIndex] || 3`: an index past the scale reads `undefined`. */
  function PointAtIndex(index: nat): (p: int)
    ensures IsPoint(p)
    ensures index < |Points| ==> p == Points[index]
    ensures index >= |Points| ==> p == DefaultPoints
  {
    if index < |Points| then Points[index] else DefaultPoints
  }

  /**
   * The points for a parsed index: read off the scale when the label
   * mentions `LABEL_`, otherwise the nearest member of the scale, found by
   * the scan without clamping.
   */
  function PointsForLabel(name: string, index: nat): (p: int)
    ensures IsPoint(p)
    ensures Contains(name, Tag) ==> p == PointAtIndex(index)
    ensures !Contains(name, Tag) ==> IsNearest(index, p)
  {
    if Contains(name, Tag) then PointAtIndex(index)
    else
      ClosestIsNearest(index);
      Closest(index)
  }

  /** The unclamped scan of the client agrees with `Snap` on every index. */
  lemma BareNumberIsSnap(name: string, index: nat)
    requires !Contains(name, Tag)
    ensures PointsForLabel(name, index) == Snap(index)
  {
    ClosestIsSnap(index);
  }

  /**
   * `estimateWithBert`: run the classifier on the context, take the top
   * result and decode its label; every thrown error becomes `Failure`.
   */
  function EstimateWithBert(title: string, description: string, classify: string -> ClassifierRun): (r: ClientEstimate)
    ensures classify(Context(title, description)).LoadFailed? ==>
      r == Failure(classify(Context(title, description)).error)
    ensures classify(Context(title, description)) == Returned([]) ==> r == Failure(NoResultsError)
    ensures r.Estimated? <==>
      && classify(Context(title, description)).Returned?
      && |classify(Context(title, description)).results| > 0
      && LabelDigits(classify(Context(title, description)).results[0].labelText).Some?
    ensures r.Estimated? ==> IsPoint(r.points)
    ensures r.Estimated? ==>
      var top := classify(Context(title, description)).results[0];
      && r.confidence == top.score && r.labelText == top.labelText
      && r.points == PointsForLabel(top.labelText, ParseDecimal(LabelDigits(top.labelText).value))
    ensures classify(Context(title, description)).Returned? && |classify(Context(title, description)).results| > 0 ==>
      var top := classify(Context(title, description)).results[0];
      LabelDigits(top.labelText).None? ==> r == Failure(UnexpectedLabelPrefix + top.labelText)
  {
    match classify(Context(title, description))
    case LoadFailed(error) => Failure(error)
    case Returned(results) =>
      if |results| == 0 then Failure(NoResultsError)
      else
        var top := results[0];
        match LabelDigits(top.labelText)
        case None => Failure(UnexpectedLabelPrefix + top.labelText)
        case Some(digits) =>
          Estimated(PointsForLabel(top.labelText, ParseDecimal(digits)), top.score, top.labelText)
  }

  /** The error message for a top label without any digit names that label. */
  lemma LabelWithoutDigitsFails(title: string, description: string, classify: string -> ClassifierRun,
                                top: Prediction, rest: seq<Prediction>)
    requires classify(Context(title, description)) == Returned([top] + rest)
    requires forall j :: 0 <= j < |top.labelText| ==> !IsDigit(top.labelText[j])
    ensures EstimateWithBert(title, description, classify) == Failure(UnexpectedLabelPrefix + top.labelText)
  {
  }

  // ---------------------------------------------------------------------
  // Round trips with the classifier's label vocabulary

  /** A string of digits cannot contain `LABEL_`. */
  lemma DigitsHaveNoTag(d: string)
    requires AllDigits(d)
    ensures !Contains(d, Tag)
  {
    forall i | 0 <= i <= |d|
      ensures !OccursAt(d, Tag, i)
    {
      if i + |Tag| <= |d| {
        assert d[i..i + |Tag|][0] == d[i];
      }
    }
  }

  /** `LABEL_k` decodes to index `k`. */
  lemma TagLabelIndex(k: nat)
    ensures Contains(Tag + Decimal(k), Tag)
    ensures LabelDigits(Tag + Decimal(k)) == Some(Decimal(k))
  {
    var name := Tag + Decimal(k);
    assert name[..|Tag|] == Tag;
    assert OccursAt(name, Tag, 0);
    assert name[|Tag|] == Decimal(k)[0];
    assert TaggedAt(name, 0);
    assert name[|Tag|..] == Decimal(k);
  }

  /** The name of class `k` gives the `k`-th member of the scale, and 3 past the end. */
  lemma TagLabelRoundTrip(k: nat)
    ensures k < |Points| ==> PointsForLabel(Tag + Decimal(k), k) == Points[k]
    ensures LabelDigits(Tag + Decimal(k)).Some?
    ensures var name := Tag + Decimal(k);
      PointsForLabel(name, ParseDecimal(LabelDigits(name).value)) == PointAtIndex(k)
  {
    TagLabelIndex(k);
    ParseDecimalOfDecimal(k);
  }

  /** A bare number as label is snapped onto the scale. */
  lemma NumberLabelIsSnapped(n: nat)
    ensures LabelDigits(Decimal(n)) == Some(Decimal(n))
    ensures PointsForLabel(Decimal(n), ParseDecimal(Decimal(n))) == Snap(n)
  {
    DigitsHaveNoTag(Decimal(n));
    AllDigitsIsFirstRun(Decimal(n));
    assert FirstTaggedFrom(Decimal(n), 0).None?;
    ParseDecimalOfDecimal(n);
    BareNumberIsSnap(Decimal(n), n);
  }

  /** Every member of the scale survives being rendered as a bare-number label. */
  lemma PointLabelRoundTrip(f: nat)
    requires IsPoint(f)
    ensures PointsForLabel(Decimal(f), ParseDecimal(Decimal(f))) == f
  {
    NumberLabelIsSnapped(f);
    SnapFixesPoints(f);
  }
}

=== FILE: classifier.dfy ===
/** What the two classifier paths share: the text they are given and the shape of their answers. */
module Classifier {

  /** One (label, score) pair returned by a text classifier. */
  datatype Prediction = Prediction(labelText: string, score: real)

  /** `${title} ${description}`: the text every estimator is given. */
  function Context(title: string, description: string): string {
    title + " " + description
  }
}

=== FILE: estimate_bert_route.dfy ===
/**
 * The server route that asks a hosted sentiment classifier for an estimate:
 * request validation, the sentiment-to-points mapping, and the rule-based
 * fallback scorer used whenever the classifier fails.
 */
module EstimateBertRoute {
  import opened Maybe
  import opened Text
  import opened Fibonacci
  import opened Classifier

  // ---------------------------------------------------------------------
  // Rule-based fallback scorer

  const ComplexWords: seq<string> := ["complex", "algorithm", "integration", "architecture", "optimization", "security"]
  const SimpleWords: seq<string> := ["simple", "basic", "easy", "quick", "minor", "small"]

  /** `text.split(/\s+/).length`. */
  function WordCount(text: string): (n: nat)
    ensures n >= 1
  {
    |Words(text)|
  }

  /** +2 above 100 words, -1 below 20 words, nothing in between. */
  function LengthAdjustment(wordCount: nat): (a: int)
    ensures wordCount > 100 <==> a == 2
    ensures wordCount < 20 <==> a == -1
    ensures 20 <= wordCount <= 100 <==> a == 0
  {
    (if wordCount > 100 then 2 else 0) + (if wordCount < 20 then -1 else 0)
  }

  /**
   * The score before clamping: base 3, +2 per complex word and -1 per simple
   * word found anywhere in the lower-cased text, plus the length adjustment.
   */
  function RawFallbackScore(text: string): (s: int)
    ensures -4 <= s <= 17
  {
    var lowerText := Lower(text);
    3 + 2 * CountPresent(lowerText, ComplexWords) - CountPresent(lowerText, SimpleWords)
    + LengthAdjustment(WordCount(text))
  }

  /** The raw score clamped to [1, 21] and snapped; it never reaches 21. */
  function EstimateFallbackPoints(text: string): (p: int)
    ensures IsPoint(p) && p != 21
    ensures IsNearest(ClampToScale(RawFallbackScore(text)), p)
  {
    SnapMatchesTable(RawFallbackScore(text));
    Snap(RawFallbackScore(text))
  }

  /**
   * A short description with four complex words and no simple word scores
   * 3 + 8 - 1 = 10, which snaps to 8.
   */
  lemma FourComplexWordsShortText(text: string)
    requires CountPresent(Lower(text), ComplexWords) == 4
    requires CountPresent(Lower(text), SimpleWords) == 0
    requires WordCount(text) < 20
    ensures RawFallbackScore(text) == 10
    ensures EstimateFallbackPoints(text) == 8
  {
    SnapMatchesTable(10);
  }

  /** More complex words (all else equal) never lower the fallback estimate. */
  lemma FallbackMonotoneInComplexWords(t1: string, t2: string)
    requires CountPresent(Lower(t1), ComplexWords) <= CountPresent(Lower(t2), ComplexWords)
    requires CountPresent(Lower(t1), SimpleWords) >= CountPresent(Lower(t2), SimpleWords)
    requires WordCount(t1) == WordCount(t2)
    ensures EstimateFallbackPoints(t1) <= EstimateFallbackPoints(t2)
  {
    SnapMonotone(RawFallbackScore(t1), RawFallbackScore(t2));
  }

  // ---------------------------------------------------------------------
  // Sentiment mapping

  /**
   * A "positive" label gives 2 (score above 0.8) or 3; any other label gives
   * 8 or 5; then the length adjustment, kept inside [1, 21]. The result is
   * not snapped afterwards.
   */
  function SentimentPoints(sentiment: string, score: real, wordCount: nat): (p: int)
    ensures 1 <= p <= 21
    ensures p in {1, 2, 3, 4, 5, 7, 8, 10}
  {
    var base :=
      if Contains(Lower(sentiment), "positive") then (if score > 0.8 then 2 else 3)
      else (if score > 0.8 then 8 else 5);
    var lengthened := if wordCount > 100 then Min(21, base + 2) else base;
    if wordCount < 20 then Max(1, lengthened - 1) else lengthened
  }

  /** The unadjusted sentiment points: 2 or 3 for positive, 8 or 5 otherwise. */
  lemma SentimentMidLength(sentiment: string, score: real, wordCount: nat)
    requires 20 <= wordCount <= 100
    ensures Contains(Lower(sentiment), "positive") ==> SentimentPoints(sentiment, score, wordCount) == (if score > 0.8 then 2 else 3)
    ensures !Contains(Lower(sentiment), "positive") ==> SentimentPoints(sentiment, score, wordCount) == (if score > 0.8 then 8 else 5)
  {
  }

  /** A confident positive label on a long text yields 4, which is off the scale. */
  lemma SentimentCanLeaveScale()
    ensures SentimentPoints("positive", 0.9, 101) == 4
    ensures !IsPoint(4)
  {
    var l := Lower("positive");
    assert l == "positive";
    assert OccursAt(l, "positive", 0);
  }

  // ---------------------------------------------------------------------
  // The route

  datatype BertRequest = BertRequest(title: Option<string>, description: Option<string>)

  /** What happened when the route tried to run the classifier. */
  datatype ClassifierRun =
    | ImportFailed                          // the transformers library did not load
    | ModelFailed                           // the pipeline or the classification threw
    | Predicted(results: seq<Prediction>)

  datatype BertReply =
    | MissingFields
    | TransformersUnavailable
    | SentimentEstimate(points: int, confidence: real, labelText: string)
    | FallbackEstimate(points: int, confidence: real, labelText: string)
    | InternalError
  {
    function Status(): int {
      match this
      case MissingFields => 400
      case TransformersUnavailable => 503
      case SentimentEstimate(_, _, _) => 200
      case FallbackEstimate(_, _, _) => 200
      case InternalError => 500
    }
  }

  /**
   * The POST handler. `body` is None when the request body is not JSON;
   * `classify` stands for loading the library and running the classifier.
   */
  function Post(body: Option<BertRequest>, classify: string -> ClassifierRun): (r: BertReply)
    ensures body.None? <==> r == InternalError
    ensures body.Some? && !(TruthyString(body.value.title) && TruthyString(body.value.description))
      ==> r == MissingFields
    ensures r.SentimentEstimate? || r.FallbackEstimate? ==> r.Status() == 200
    ensures r.SentimentEstimate? ==> 1 <= r.points <= 21
    ensures r.FallbackEstimate? ==> IsPoint(r.points) && r.confidence == 0.6 && r.labelText == "FALLBACK"
    ensures r.FallbackEstimate? ==>
      r.points == EstimateFallbackPoints(Context(body.value.title.value, body.value.description.value))
    ensures body.Some? && TruthyString(body.value.title) && TruthyString(body.value.description) ==>
      var context := Context(body.value.title.value, body.value.description.value);
      && (classify(context) == ImportFailed ==> r == TransformersUnavailable)
      && (classify(context) == ModelFailed || classify(context) == Predicted([]) ==>
            r == FallbackEstimate(EstimateFallbackPoints(context), 0.6, "FALLBACK"))
      && (classify(context).Predicted? && |classify(context).results| > 0 ==>
            var top := classify(context).results[0];
            r == SentimentEstimate(SentimentPoints(top.labelText, top.score, WordCount(context)), top.score, top.labelText))
  {
    match body
    case None => InternalError
    case Some(req) =>
      if !TruthyString(req.title) || !TruthyString(req.description) then MissingFields
      else
        var context := Context(req.title.value, req.description.value);
        match classify(context)
        case ImportFailed => TransformersUnavailable
        case ModelFailed => FallbackEstimate(EstimateFallbackPoints(context), 0.6, "FALLBACK")
        case Predicted(results) =>
          if |results| == 0 then FallbackEstimate(EstimateFallbackPoints(context), 0.6, "FALLBACK")
          else
            var top := results[0];
            SentimentEstimate(SentimentPoints(top.labelText, top.score, WordCount(context)), top.score, top.labelText)
  }

  /** A classifier failure still answers 200 with the rule-based fallback. */
  lemma ModelFailureFallsBack(title: string, description: string, classify: string -> ClassifierRun)
    requires title != "" && description != ""
    requires classify(Context(title, description)) == ModelFailed
             || classify(Context(title, description)) == Predicted([])
    ensures var r := Post(Some(BertRequest(Some(title), Some(description))), classify);
      && r == FallbackEstimate(EstimateFallbackPoints(Context(title, description)), 0.6, "FALLBACK")
      && r.Status() == 200
  {
  }

  /** A library that fails to load answers 503, without any points. */
  lemma ImportFailureIsUnavailable(title: string, description: string, classify: string -> ClassifierRun)
    requires title != "" && description != ""
    requires classify(Context(title, description)) == ImportFailed
    ensures Post(Some(BertRequest(Some(title), Some(description))), classify).Status() == 503
  {
  }
}

=== FILE: estimate_route.dfy ===
/**
 * The server route that asks a hosted language model for an estimate: field
 * validation, the fixed prompt, the backend dispatch table, and the
 * normalisation of the free-text answer onto the story-point scale.
 */
module EstimateRoute {
  import opened Maybe
  import opened Text
  import opened Fibonacci

  datatype LlmRequest = LlmRequest(description: Option<string>, taskType: Option<string>, model: Option<string>)

  /** The two supported backends. */
  datatype Backend = Groq | Xai

  /** One call of the text generator, with the settings the route passes. */
  datatype Generation = Generation(backend: Backend, modelId: string, prompt: string, temperature: real, maxTokens: nat)

  /** The generator's answer: its text, or a thrown error. */
  datatype Completion = Completed(text: string) | Failed

  datatype LlmReply =
    | Estimate(points: int, note: Option<string>)
    | BadRequest(error: string)
    | ServerError(error: string)
  {
    function Status(): int {
      match this
      case Estimate(_, _) => 200
      case BadRequest(_) => 400
      case ServerError(_) => 500
    }
  }

  const MissingFieldsError := "Descrição, tipo de tarefa e modelo são obrigatórios"
  const UnsupportedModelError := "Modelo não suportado"
  const ProcessingError := "Erro ao processar a solicitação"
  const DefaultPointsNote := "Estimativa padrão usada devido a resposta não padrão do modelo"
  const DefaultPoints := 3

  // ---------------------------------------------------------------------
  // Prompt

  const Indent := "\n    "

  const PromptHead :=
    Indent + "Você é um especialista em metodologias ágeis e estimativa de story points." + Indent
    + Indent + "Analise a seguinte descrição de tarefa e estime quantos story points ela deve receber." + Indent
    + Indent + "Descrição da tarefa: \""

  const PromptMiddle := "\"" + Indent + "Tipo da tarefa: \""

  const PromptTail :=
    "\"" + Indent
    + Indent + "Considere os seguintes fatores na sua análise:"
    + Indent + "1. Complexidade técnica"
    + Indent + "2. Esforço necessário"
    + Indent + "3. Incertezas e riscos"
    + Indent + "4. Dependências" + Indent
    + Indent + "Responda APENAS com um número da sequência de Fibonacci (1, 2, 3, 5, 8, 13, 21) que melhor representa a estimativa de story points para esta tarefa." + Indent
    + Indent + "Sua resposta deve ser APENAS o número, sem explicações ou texto adicional." + Indent

  /** Filling two holes of a template puts each filler at a known position. */
  lemma FillEmbeds(head: string, first: string, middle: string, second: string, tail: string)
    ensures var p := head + first + middle + second + tail;
      && OccursAt(p, first, |head|) && OccursAt(p, second, |head| + |first| + |middle|)
      && Contains(p, first) && Contains(p, second)
  {
    var p := head + first + middle + second + tail;
    var i := |head|;
    var j := |head| + |first| + |middle|;
    assert p[i..i + |first|] == first;
    assert p[j..j + |second|] == second;
    assert OccursAt(p, first, i) && i <= |p|;
    assert OccursAt(p, second, j) && j <= |p|;
  }

  /** The fixed template with the description and the task type quoted in it verbatim. */
  function Prompt(description: string, taskType: string): (p: string)
    ensures OccursAt(p, description, |PromptHead|)
    ensures OccursAt(p, taskType, |PromptHead| + |description| + |PromptMiddle|)
    ensures Contains(p, description) && Contains(p, taskType)
  {
    FillEmbeds(PromptHead, description, PromptMiddle, taskType, PromptTail);
    PromptHead + description + PromptMiddle + taskType + PromptTail
  }

  // ---------------------------------------------------------------------
  // Dispatch

  /** "groq" and "grok" are the only accepted model names. */
  function BackendFor(model: string): (b: Option<Backend>)
    ensures b == Some(Groq) <==> model == "groq"
    ensures b == Some(Xai) <==> model == "grok"
    ensures b.None? <==> model != "groq" && model != "grok"
  {
    if model == "groq" then Some(Groq)
    else if model == "grok" then Some(Xai)
    else None
  }

  /** The model each backend is asked for, at temperature 0.2 and at most 10 tokens. */
  function GenerationFor(backend: Backend, prompt: string): (g: Generation)
    ensures g.backend == backend && g.prompt == prompt
    ensures g.temperature == 0.2 && g.maxTokens == 10
  {
    match backend
    case Groq => Generation(Groq, "llama-3.1-8b-instant", prompt, 0.2, 10)
    case Xai => Generation(Xai, "grok-1", prompt, 0.2, 10)
  }

  // ---------------------------------------------------------------------
  // Normalising the answer

  /** `parseInt` of the first run of digits in the answer, if there is one. */
  function ParsePoints(text: string): (n: Option<nat>)
    ensures n.None? <==> forall j :: 0 <= j < |text| ==> !IsDigit(text[j])
  {
    match FirstDigitRun(text)
    case None => None
    case Some(run) => Some(ParseDecimal(run))
  }

  /** A parsed member of the scale is kept; anything else becomes 3 with a note. */
  function NormalizeAnswer(text: string): (r: LlmReply)
    ensures r.Estimate? && IsPoint(r.points)
    ensures r.note.None? <==> ParsePoints(text).Some? && IsPoint(ParsePoints(text).value)
    ensures r.note.None? ==> r.points == ParsePoints(text).value
    ensures r.note.Some? ==> r.points == DefaultPoints && r.note.value == DefaultPointsNote
  {
    var parsed := ParsePoints(text);
    if parsed.Some? && parsed.value != 0 && IsPoint(parsed.value) then Estimate(parsed.value, None)
    else Estimate(DefaultPoints, Some(DefaultPointsNote))
  }

  /** An answer that is exactly a rendered member of the scale comes back unchanged. */
  lemma NormalizeRoundTrip(f: int)
    requires IsPoint(f)
    ensures NormalizeAnswer(Decimal(f)) == Estimate(f, None)
  {
    AllDigitsIsFirstRun(Decimal(f));
    ParseDecimalOfDecimal(f);
  }

  /** A digit run that ends where the text ends or at a non-digit is its own prefix. */
  lemma {:induction false} DigitPrefixStopsAtNonDigit(d: string, rest: string)
    requires AllDigits(d)
    requires |rest| == 0 || !IsDigit(rest[0])
    ensures DigitPrefix(d + rest) == d
  {
    if |d| > 0 {
      assert (d + rest)[1..] == d[1..] + rest;
      DigitPrefixStopsAtNonDigit(d[1..], rest);
    } else {
      assert d + rest == rest;
    }
  }

  /**
   * Only the first number counts: with no digit before it, the number
   * rendered in the answer is what is parsed, whatever follows a
   * non-digit after it.
   */
  lemma FirstNumberWins(prefix: string, n: nat, rest: string)
    requires forall j :: 0 <= j < |prefix| ==> !IsDigit(prefix[j])
    requires |rest| == 0 || !IsDigit(rest[0])
    ensures ParsePoints(prefix + Decimal(n) + rest) == Some(n)
  {
    var d := Decimal(n);
    var tail := d + rest;
    assert prefix + d + rest == prefix + tail;
    FirstDigitAfterPrefix(prefix, tail);
    assert (prefix + tail)[|prefix|..] == tail;
    DigitPrefixStopsAtNonDigit(d, rest);
    ParseDecimalOfDecimal(n);
  }

  /** After a digit-free prefix, the first digit is where the prefix ends. */
  lemma FirstDigitAfterPrefix(prefix: string, tail: string)
    requires forall j :: 0 <= j < |prefix| ==> !IsDigit(prefix[j])
    requires |tail| > 0 && IsDigit(tail[0])
    ensures FirstDigitAt(prefix + tail) == Some(|prefix|)
  {
    var s := prefix + tail;
    assert IsDigit(s[|prefix|]);
    var at := FirstDigitAt(s);
    assert at.Some?;
  }

  // ---------------------------------------------------------------------
  // The route

  /** All three fields present and non-empty. */
  predicate HasRequiredFields(req: LlmRequest) {
    TruthyString(req.description) && TruthyString(req.taskType) && TruthyString(req.model)
  }

  /** The one generation a complete request for a supported model sends. */
  function Sent(req: LlmRequest): (g: Generation)
    requires HasRequiredFields(req) && BackendFor(req.model.value).Some?
    ensures g == GenerationFor(BackendFor(req.model.value).value, Prompt(req.description.value, req.taskType.value))
    ensures (g.backend == Groq <==> req.model.value == "groq") && (g.backend == Xai <==> req.model.value == "grok")
    ensures Contains(g.prompt, req.description.value) && Contains(g.prompt, req.taskType.value)
  {
    GenerationFor(BackendFor(req.model.value).value, Prompt(req.description.value, req.taskType.value))
  }

  /**
   * The POST handler. `body` is None when the request body is not JSON;
   * `generate` stands for the text-generation call to the chosen backend.
   */
  function Post(body: Option<LlmRequest>, generate: Generation -> Completion): (r: LlmReply)
    ensures body.None? ==> r == ServerError(ProcessingError)
    ensures body.Some? && !HasRequiredFields(body.value) ==> r == BadRequest(MissingFieldsError)
    ensures body.Some? && HasRequiredFields(body.value) && BackendFor(body.value.model.value).None?
      ==> r == BadRequest(UnsupportedModelError)
    ensures r.Estimate? ==> IsPoint(r.points)
    ensures r.Estimate? ==>
      (body.Some? && HasRequiredFields(body.value) && BackendFor(body.value.model.value).Some?)
    ensures body.Some? && HasRequiredFields(body.value) && BackendFor(body.value.model.value).Some? ==>
      && (generate(Sent(body.value)).Failed? ==> r == ServerError(ProcessingError))
      && (generate(Sent(body.value)).Completed? ==> r == NormalizeAnswer(generate(Sent(body.value)).text))
  {
    match body
    case None => ServerError(ProcessingError)
    case Some(req) =>
      if !HasRequiredFields(req) then BadRequest(MissingFieldsError)
      else
        match BackendFor(req.model.value)
        case None => BadRequest(UnsupportedModelError)
        case Some(backend) =>
          match generate(Sent(req))
          case Failed => ServerError(ProcessingError)
          case Completed(text) => NormalizeAnswer(text)
  }

  /**
   * A backend that answers the request's one generation with a rendered
   * member gets that member back, with no note.
   */
  lemma PostRoundTrip(description: string, taskType: string, model: string, generate: Generation -> Completion, f: int)
    requires IsPoint(f)
    requires description != "" && taskType != "" && (model == "groq" || model == "grok")
    requires generate(Sent(LlmRequest(Some(description), Some(taskType), Some(model)))) == Completed(Decimal(f))
    ensures Post(Some(LlmRequest(Some(description), Some(taskType), Some(model))), generate) == Estimate(f, None)
  {
    NormalizeRoundTrip(f);
  }

  /** A backend that fails on the request's one generation yields a 500 error payload and never points. */
  lemma BackendFailureIsServerError(description: string, taskType: string, model: string, generate: Generation -> Completion)
    requires description != "" && taskType != "" && (model == "groq" || model == "grok")
    requires generate(Sent(LlmRequest(Some(description), Some(taskType), Some(model)))) == Failed
    ensures Post(Some(LlmRequest(Some(description), Some(taskType), Some(model))), generate) == ServerError(ProcessingError)
    ensures Post(Some(LlmRequest(Some(description), Some(taskType), Some(model))), generate).Status() == 500
  {
  }
}

=== FILE: fibonacci.dfy ===
/**
 * The story-point scale {1, 2, 3, 5, 8, 13, 21} and the nearest-member scan
 * that three places of the estimator use to land on it (the text analyser,
 * the rule-based fallback of the classifier route and the client-side
 * classifier decoder).
 */
module Fibonacci {

  /** The scale, in the order every copy of the scan visits it. */
  const Points: seq<int> := [1, 2, 3, 5, 8, 13, 21]

  predicate IsPoint(x: int) {
    x in Points
  }

  function Abs(x: int): int {
    if x < 0 then -x else x
  }

  function Min(a: int, b: int): int {
    if a < b then a else b
  }

  function Max(a: int, b: int): int {
    if a < b then b else a
  }

  /** `Math.max(1, Math.min(21, x))`. */
  function ClampToScale(x: int): (c: int)
    ensures 1 <= c <= 21
    ensures 1 <= x <= 21 ==> c == x
  {
    if x < 1 then 1 else if x > 21 then 21 else x
  }

  lemma PointsIncreasing(a: nat, b: nat)
    requires a < b < |Points|
    ensures Points[a] < Points[b]
  {
  }

  // ---------------------------------------------------------------------
  // What "nearest" means

  /**
   * `r` is a member at least as close to `v` as every member, and of the
   * members at that distance it is the smallest.
   */
  ghost predicate IsNearest(v: int, r: int) {
    && IsPoint(r)
    && forall f :: IsPoint(f) ==>
         Abs(v - r) < Abs(v - f) || (Abs(v - r) == Abs(v - f) && r <= f)
  }

  /** At most one member is the nearest one. */
  lemma NearestUnique(v: int, a: int, b: int)
    requires IsNearest(v, a) && IsNearest(v, b)
    ensures a == b
  {
    assert IsPoint(a) && IsPoint(b);
  }

  /**
   * Index `k` holds the first minimum of the distance to `v` among the
   * first `n` members: no earlier member is as close, no later one closer.
   */
  ghost predicate FirstMin(v: int, k: nat, n: nat)
    requires n <= |Points|
  {
    && k < n
    && (forall j :: 0 <= j < n ==> Abs(v - Points[k]) <= Abs(v - Points[j]))
    && (forall j :: 0 <= j < k ==> Abs(v - Points[k]) < Abs(v - Points[j]))
  }

  /** The first minimum over the whole scale is the nearest member. */
  lemma FirstMinIsNearest(v: int, k: nat)
    requires FirstMin(v, k, |Points|)
    ensures IsNearest(v, Points[k])
  {
    forall f | IsPoint(f)
      ensures Abs(v - Points[k]) < Abs(v - f) || (Abs(v - Points[k]) == Abs(v - f) && Points[k] <= f)
    {
      var j :| 0 <= j < |Points| && Points[j] == f;
      if k < j {
        PointsIncreasing(k, j);
      }
    }
  }

  // ---------------------------------------------------------------------
  // The scan: keep the first member whose distance is strictly smaller

  /**
   * The loop `for (const fib of fibonacciPoints) { diff = |v - fib|; if (diff < minDiff) ... }`
   * from index `i` on, with loop variables `closest` and `minDiff`.
   */
  function ScanFrom(v: int, i: nat, closest: int, minDiff: int): (r: int)
    requires i <= |Points|
    ensures IsPoint(closest) ==> IsPoint(r)
    ensures r == closest || Abs(v - r) < minDiff
    decreases |Points| - i
  {
    if i == |Points| then closest
    else
      var diff := Abs(v - Points[i]);
      if diff < minDiff then ScanFrom(v, i + 1, Points[i], diff)
      else ScanFrom(v, i + 1, closest, minDiff)
  }

  /** The scan, starting from the first member with `closest = fibonacciPoints[0]`. */
  function Closest(v: int): (c: int)
    ensures IsPoint(c)
    ensures Abs(v - c) <= Abs(v - Points[0])
  {
    ScanFrom(v, 0, Points[0], Abs(v - Points[0]))
  }

  /** The scan keeps the first minimum it has seen so far. */
  lemma {:induction false} ScanFromKeepsFirstMin(v: int, i: nat, k: nat)
    requires 1 <= i <= |Points| && FirstMin(v, k, i)
    ensures exists k': nat :: FirstMin(v, k', |Points|) && ScanFrom(v, i, Points[k], Abs(v - Points[k])) == Points[k']
    decreases |Points| - i
  {
    if i == |Points| {
      assert FirstMin(v, k, |Points|);
    } else {
      var diff := Abs(v - Points[i]);
      if diff < Abs(v - Points[k]) {
        assert FirstMin(v, i, i + 1);
        ScanFromKeepsFirstMin(v, i + 1, i);
      } else {
        assert FirstMin(v, k, i + 1);
        ScanFromKeepsFirstMin(v, i + 1, k);
      }
    }
  }

  /** The scan finds the nearest member, ties going to the smaller one. */
  lemma ClosestIsNearest(v: int)
    ensures IsNearest(v, Closest(v))
  {
    assert Closest(v) == ScanFrom(v, 1, Points[0], Abs(v - Points[0]));
    assert FirstMin(v, 0, 1);
    ScanFromKeepsFirstMin(v, 1, 0);
    var k: nat :| FirstMin(v, k, |Points|) && Closest(v) == Points[k];
    FirstMinIsNearest(v, k);
  }

  /**
   * The scan as an imperative loop over the running pair
   * `closest` and `minDiff`.
   */
  method NearestPoint(v: int) returns (closest: int)
    ensures IsNearest(v, closest)
  {
    closest := Points[0];
    var minDiff := Abs(v - closest);
    ghost var k: nat := 0;
    for i := 0 to |Points|
      invariant k < |Points| && (i == 0 ==> k == 0) && (i > 0 ==> k < i)
      invariant closest == Points[k] && minDiff == Abs(v - closest)
      invariant forall j :: 0 <= j < i ==> minDiff <= Abs(v - Points[j])
      invariant forall j :: 0 <= j < k ==> minDiff < Abs(v - Points[j])
    {
      var diff := Abs(v - Points[i]);
      if diff < minDiff {
        minDiff := diff;
        closest := Points[i];
        k := i;
      }
    }
    FirstMinIsNearest(v, k);
  }

  // ---------------------------------------------------------------------
  // Snapping and its reference table

  /** Clamp to [1, 21], then scan for the nearest member. */
  function Snap(x: int): (r: int)
    ensures IsPoint(r)
    ensures IsNearest(ClampToScale(x), r)
  {
    var c := ClampToScale(x);
    ClosestIsNearest(c);
    Closest(c)
  }

  /** The snapping written out interval by interval. */
  function SnapTable(x: int): int {
    if x <= 1 then 1
    else if x == 2 then 2
    else if x <= 4 then 3
    else if x <= 6 then 5
    else if x <= 10 then 8
    else if x <= 17 then 13
    else 21
  }

  lemma SnapTableIsNearest(x: int)
    ensures IsNearest(ClampToScale(x), SnapTable(x))
    ensures IsNearest(x, SnapTable(x))
  {
  }

  /** Snapping agrees with the table on every integer. */
  lemma SnapMatchesTable(x: int)
    ensures Snap(x) == SnapTable(x)
  {
    SnapTableIsNearest(x);
    NearestUnique(ClampToScale(x), Snap(x), SnapTable(x));
  }

  /**
   * The unclamped scan equals the clamped one for every integer: clamping
   * never changes which member is nearest.
   */
  lemma ClosestIsSnap(v: int)
    ensures Closest(v) == Snap(v)
  {
    ClosestIsNearest(v);
    SnapTableIsNearest(v);
    NearestUnique(v, Closest(v), SnapTable(v));
    SnapMatchesTable(v);
  }

  /** Members of the scale are left where they are. */
  lemma SnapFixesPoints(f: int)
    requires IsPoint(f)
    ensures Snap(f) == f
  {
    SnapMatchesTable(f);
  }

  lemma SnapIdempotent(x: int)
    ensures Snap(Snap(x)) == Snap(x)
  {
    SnapFixesPoints(Snap(x));
  }

  lemma SnapMonotone(x: int, y: int)
    requires x <= y
    ensures Snap(x) <= Snap(y)
  {
    SnapMatchesTable(x);
    SnapMatchesTable(y);
  }

  /** Scores from 2 to 15 never reach either end of the scale. */
  lemma SnapInterior(x: int)
    requires 2 <= x <= 15
    ensures Snap(x) != 1 && Snap(x) != 21
    ensures 2 <= Snap(x) <= 13
  {
    SnapMatchesTable(x);
  }
}

=== FILE: maybe.dfy ===
/** Optional values: JavaScript's `null` / `undefined` made explicit. */
module Maybe {

  datatype Option<+T> = None | Some(value: T)

  /** JavaScript truthiness of a `string | null`: null and "" are falsy. */
  predicate TruthyString(s: Option<string>) {
    s.Some? && s.value != ""
  }

  /** JavaScript truthiness of a `number | null`: null and 0 are falsy. */
  predicate TruthyNumber(n: Option<int>) {
    n.Some? && n.value != 0
  }

  /** `s || fallback` for a nullable string. */
  function OrElse(s: Option<string>, fallback: string): (r: string)
    ensures TruthyString(s) ==> r == s.value
    ensures !TruthyString(s) ==> r == fallback
  {
    if TruthyString(s) then s.value else fallback
  }
}

=== FILE: task_estimator.dfy ===
/**
 * The estimator form as a state machine: the form's state is an immutable
 * record and every handler is a transition. The rule-based estimator, the
 * trained model, the hosted-model request and the clock are parameters.
 */
module TaskEstimator {
  import opened Maybe
  import opened Fibonacci

  /** An opaque reference to a trained model. */
  datatype ModelHandle = ModelHandle(id: nat)

  /** A saved task, as it is stored in the history. */
  datatype Task = Task(
    id: string,
    title: string,
    description: string,
    taskType: string,
    estimatedPoints: int,
    mlEstimatedPoints: Option<int>,
    aiEstimatedPoints: Option<int>,
    aiModel: Option<string>,
    finalPoints: int,
    createdAt: string)

  datatype ModelStats = ModelStats(trainedOn: nat, lastTrainedAt: Option<string>, accuracy: Option<real>)

  datatype FormState = FormState(
    tasks: seq<Task>,
    title: string,
    description: string,
    taskType: string,
    estimatedPoints: Option<int>,
    mlEstimatedPoints: Option<int>,
    aiEstimatedPoints: Option<int>,
    manualPoints: Option<int>,
    model: Option<ModelHandle>,
    stats: ModelStats,
    isModelLoading: bool,
    activeTab: string,
    aiModel: Option<string>,
    isAiLoading: bool,
    aiError: Option<string>,
    importSuccess: Option<nat>)

  const DefaultTaskType := "feature"
  const EstimateTab := "estimate"
  /** Retraining needs at least this many tasks. */
  const MinTrainingTasks := 5

  /** What the model's prediction gave: a number, or a thrown error. */
  datatype Prediction = PredictFailed | Predicted(points: int)

  /** What the request to the estimate route gave. */
  datatype AiResponse =
    | ConnectionFailed                     // `fetch` or reading the JSON body threw
    | Answered(status: int, userMessage: Option<string>, error: Option<string>, points: Option<int>)

  /** What training gave: a model, nothing, or a thrown error (training or saving). */
  datatype TrainOutcome = TrainFailed | NoModel | Trained(handle: ModelHandle)

  /** The two readings of the clock a save takes: `Date.now()` and the ISO timestamp. */
  datatype Clock = Clock(stamp: string, iso: string)

  // ---------------------------------------------------------------------
  // Estimating

  /**
   * The points proposed after an estimate: the model's prediction when
   * there is a model, it did not throw and its value is non-zero; the rule
   * estimate otherwise.
   */
  function Proposal(rulePoints: int, model: Option<ModelHandle>, prediction: Prediction): (p: int)
    ensures p != rulePoints ==> model.Some? && prediction.Predicted? && prediction.points != 0
    ensures model.Some? && prediction.Predicted? && prediction.points != 0 ==> p == prediction.points
  {
    if model.Some? && prediction.Predicted? && prediction.points != 0 then prediction.points else rulePoints
  }

  /**
   * `handleEstimate`. `rule` stands for the rule-based estimator and
   * `predict` for the trained model's prediction.
   */
  function Estimate(s: FormState, rule: (string, string) -> int, predict: (ModelHandle, string, string) -> Prediction): (t: FormState)
    ensures s.title == "" || s.description == "" ==> t == s
    ensures s.title != "" && s.description != "" ==>
      && t.estimatedPoints == Some(rule(s.description, s.taskType))
      && t.aiEstimatedPoints.None? && t.aiError.None?
      && t.manualPoints.Some?
    ensures s.title != "" && s.description != "" && s.model.Some? ==>
      var prediction := predict(s.model.value, s.description, s.taskType);
      && t.manualPoints == Some(Proposal(rule(s.description, s.taskType), s.model, prediction))
      && (prediction.Predicted? ==> t.mlEstimatedPoints == Some(prediction.points))
      && (prediction.PredictFailed? ==> t.mlEstimatedPoints == s.mlEstimatedPoints)
    ensures s.title != "" && s.description != "" && s.model.None? ==>
      t.manualPoints == Some(rule(s.description, s.taskType))
    ensures s.model.None? ==> t.mlEstimatedPoints == s.mlEstimatedPoints
    ensures t == s.(estimatedPoints := t.estimatedPoints, mlEstimatedPoints := t.mlEstimatedPoints,
                    manualPoints := t.manualPoints, aiEstimatedPoints := t.aiEstimatedPoints, aiError := t.aiError)
  {
    if s.title == "" || s.description == "" then s
    else
      var points := rule(s.description, s.taskType);
      var estimated :=
        match s.model
        case None => s.(estimatedPoints := Some(points), manualPoints := Some(points))
        case Some(m) =>
          match predict(m, s.description, s.taskType)
          case PredictFailed => s.(estimatedPoints := Some(points), manualPoints := Some(points))
          case Predicted(ml) =>
            s.(estimatedPoints := Some(points), mlEstimatedPoints := Some(ml),
               manualPoints := Some(if ml != 0 then ml else points));
      estimated.(aiEstimatedPoints := None, aiError := None)
  }

  // ---------------------------------------------------------------------
  // Asking the hosted model

  const RateLimitedMessage := "Limite de requisições atingido. Tente novamente mais tarde."
  const UnavailableMessage := "Serviço temporariamente indisponível."
  const AiFailedMessage := "Erro ao obter estimativa da IA"
  const ConnectionMessage := "Erro de conexão. Verifique sua internet e tente novamente."

  /** `response.ok`. */
  predicate IsOk(status: int) {
    200 <= status <= 299
  }

  /** The error stored for a non-ok answer: the route's own message when it gave one. */
  function AiErrorText(status: int, userMessage: Option<string>, error: Option<string>): (e: string)
    ensures TruthyString(userMessage) ==> e == userMessage.value
    ensures !TruthyString(userMessage) && status == 429 ==> e == RateLimitedMessage
    ensures !TruthyString(userMessage) && status == 503 ==> e == UnavailableMessage
    ensures !TruthyString(userMessage) && status != 429 && status != 503 ==>
      e == (if TruthyString(error) then error.value else AiFailedMessage)
    ensures e != ""
  {
    if status == 429 then OrElse(userMessage, RateLimitedMessage)
    else if status == 503 then OrElse(userMessage, UnavailableMessage)
    else OrElse(userMessage, OrElse(error, AiFailedMessage))
  }

  /** The synchronous part of `handleAiEstimate`: remember the model and start loading. */
  function StartAi(s: FormState, selected: string): (t: FormState)
    ensures s.description == "" || s.taskType == "" ==> t == s
    ensures s.description != "" && s.taskType != "" ==>
      t == s.(aiModel := Some(selected), isAiLoading := true, aiError := None)
  {
    if s.description == "" || s.taskType == "" then s
    else s.(aiModel := Some(selected), isAiLoading := true, aiError := None)
  }

  /** The asynchronous part of `handleAiEstimate`: the answer arrives. */
  function ResolveAi(s: FormState, response: AiResponse): (t: FormState)
    ensures !t.isAiLoading
    ensures response.ConnectionFailed? ==> t.aiError == Some(ConnectionMessage)
    ensures response.Answered? && !IsOk(response.status) ==>
      t.aiError == Some(AiErrorText(response.status, response.userMessage, response.error))
    ensures response.Answered? && IsOk(response.status) ==>
      t.aiEstimatedPoints == response.points && t.manualPoints == response.points && t.aiError == s.aiError
    ensures t.aiError != s.aiError ==> t.manualPoints == s.manualPoints && t.aiEstimatedPoints == s.aiEstimatedPoints
    ensures t == s.(aiEstimatedPoints := t.aiEstimatedPoints, manualPoints := t.manualPoints,
                    aiError := t.aiError, isAiLoading := false)
  {
    match response
    case ConnectionFailed => s.(aiError := Some(ConnectionMessage), isAiLoading := false)
    case Answered(status, userMessage, error, points) =>
      if !IsOk(status) then s.(aiError := Some(AiErrorText(status, userMessage, error)), isAiLoading := false)
      else s.(aiEstimatedPoints := points, manualPoints := points, isAiLoading := false)
  }

  /** A failed request leaves both the AI points and the proposal as they were. */
  lemma AiFailureKeepsPoints(s: FormState, response: AiResponse)
    requires response.ConnectionFailed? || !IsOk(response.status)
    ensures ResolveAi(s, response).manualPoints == s.manualPoints
    ensures ResolveAi(s, response).aiEstimatedPoints == s.aiEstimatedPoints
    ensures ResolveAi(s, response).aiError.Some?
  {
  }

  /** `handleRetryAiEstimate`: ask again with the last model, if there is one. */
  function Retry(s: FormState): (t: FormState)
    ensures !TruthyString(s.aiModel) ==> t == s
    ensures TruthyString(s.aiModel) ==> t == StartAi(s, s.aiModel.value)
    ensures t.aiModel == s.aiModel
  {
    if TruthyString(s.aiModel) then StartAi(s, s.aiModel.value) else s
  }

  // ---------------------------------------------------------------------
  // Training

  /** The simulated accuracy: 0.7 plus half a point per task, up to 50 tasks. */
  function Accuracy(n: nat): (a: real)
    ensures 0.7 <= a <= 0.95
    ensures n >= 50 ==> a == 0.95
    ensures n == 0 ==> a == 0.7
    ensures n < 50 ==> (a - 0.7) * 200.0 == n as real
  {
    0.7 + (Min(50, n) as real) / 200.0
  }

  /** More tasks never lower the simulated accuracy. */
  lemma AccuracyMonotone(m: nat, n: nat)
    requires m <= n
    ensures Accuracy(m) <= Accuracy(n)
  {
  }

  /** `trainModelWithTasks`, taken as one step; `now` is the ISO time it finishes. */
  function TrainModelWithTasks(s: FormState, taskList: seq<Task>, outcome: TrainOutcome, now: string): (t: FormState)
    ensures !t.isModelLoading
    ensures outcome.Trained? ==>
      t.model == Some(outcome.handle)
      && t.stats == ModelStats(|taskList|, Some(now), Some(Accuracy(|taskList|)))
    ensures !outcome.Trained? ==> t.model == s.model && t.stats == s.stats
    ensures t == s.(model := t.model, stats := t.stats, isModelLoading := false)
  {
    match outcome
    case Trained(h) =>
      var n := |taskList|;
      s.(model := Some(h), stats := ModelStats(n, Some(now), Some(Accuracy(n))), isModelLoading := false)
    case _ => s.(isModelLoading := false)
  }

  /** Retrain on `taskList` when it holds at least five tasks. */
  function RetrainIfEnough(s: FormState, taskList: seq<Task>, outcome: TrainOutcome, now: string): (t: FormState)
    ensures |taskList| < MinTrainingTasks ==> t == s
    ensures |taskList| >= MinTrainingTasks ==> t == TrainModelWithTasks(s, taskList, outcome, now)
  {
    if |taskList| >= MinTrainingTasks then TrainModelWithTasks(s, taskList, outcome, now) else s
  }

  /** `handleTrainModel`. */
  function HandleTrainModel(s: FormState, outcome: TrainOutcome, now: string): (t: FormState)
    ensures |s.tasks| < MinTrainingTasks ==> t == s
    ensures |s.tasks| >= MinTrainingTasks && outcome.Trained? ==> t.stats.trainedOn == |s.tasks|
    ensures t.tasks == s.tasks
  {
    RetrainIfEnough(s, s.tasks, outcome, now)
  }

  // ---------------------------------------------------------------------
  // Saving, importing, resetting

  /** `resetForm`: clear the inputs and every estimate, keep the rest. */
  function ResetForm(s: FormState): (t: FormState)
    ensures t.title == "" && t.description == "" && t.taskType == DefaultTaskType
    ensures t.estimatedPoints.None? && t.mlEstimatedPoints.None? && t.aiEstimatedPoints.None?
    ensures t.aiModel.None? && t.manualPoints.None? && t.aiError.None?
    ensures t.tasks == s.tasks && t.model == s.model && t.stats == s.stats
    ensures t.isModelLoading == s.isModelLoading && t.activeTab == s.activeTab
    ensures t.isAiLoading == s.isAiLoading && t.importSuccess == s.importSuccess
  {
    s.(title := "", description := "", taskType := DefaultTaskType, estimatedPoints := None,
       mlEstimatedPoints := None, aiEstimatedPoints := None, aiModel := None, manualPoints := None,
       aiError := None)
  }

  /** Resetting twice is resetting once. */
  lemma ResetIdempotent(s: FormState)
    ensures ResetForm(ResetForm(s)) == ResetForm(s)
  {
  }

  /** The task `handleSave` records; `estimatedPoints || 0` for the rule estimate. */
  function NewTask(s: FormState, clock: Clock): (task: Task)
    requires s.manualPoints.Some?
    ensures task.finalPoints == s.manualPoints.value
    ensures task.estimatedPoints == (if TruthyNumber(s.estimatedPoints) then s.estimatedPoints.value else 0)
    ensures task.title == s.title && task.description == s.description && task.taskType == s.taskType
    ensures task.mlEstimatedPoints == s.mlEstimatedPoints && task.aiEstimatedPoints == s.aiEstimatedPoints
    ensures task.aiModel == s.aiModel
  {
    Task(clock.stamp, s.title, s.description, s.taskType,
         if TruthyNumber(s.estimatedPoints) then s.estimatedPoints.value else 0,
         s.mlEstimatedPoints, s.aiEstimatedPoints, s.aiModel, s.manualPoints.value, clock.iso)
  }

  /** Whether a save goes through. */
  predicate CanSave(s: FormState) {
    s.title != "" && s.description != "" && s.manualPoints.Some?
  }

  /** `handleSave`: record the task in front of the history, reset, and retrain when there are enough. */
  function Save(s: FormState, clock: Clock, outcome: TrainOutcome): (t: FormState)
    ensures !CanSave(s) ==> t == s
    ensures CanSave(s) ==>
      && |t.tasks| == |s.tasks| + 1
      && t.tasks[0] == NewTask(s, clock)
      && t.tasks[1..] == s.tasks
      && t.tasks[0].finalPoints == s.manualPoints.value
    ensures CanSave(s) ==> t.title == "" && t.description == "" && t.manualPoints.None?
    ensures CanSave(s) && |s.tasks| + 1 >= MinTrainingTasks && outcome.Trained? ==>
      t.model == Some(outcome.handle) && t.stats.trainedOn == |s.tasks| + 1
    ensures CanSave(s) && |s.tasks| + 1 < MinTrainingTasks ==> t.model == s.model && t.stats == s.stats
    ensures CanSave(s) && !outcome.Trained? ==> t.model == s.model && t.stats == s.stats
    ensures CanSave(s) && |s.tasks| + 1 >= MinTrainingTasks ==> !t.isModelLoading
    ensures CanSave(s) && |s.tasks| + 1 < MinTrainingTasks ==> t.isModelLoading == s.isModelLoading
    ensures CanSave(s) ==>
      t.(model := s.model, stats := s.stats, isModelLoading := s.isModelLoading)
      == ResetForm(s).(tasks := [NewTask(s, clock)] + s.tasks)
  {
    if !CanSave(s) then s
    else
      var updated := [NewTask(s, clock)] + s.tasks;
      RetrainIfEnough(ResetForm(s.(tasks := updated)), updated, outcome, clock.iso)
  }

  /** `handleImportTasks`: imported tasks go in front, in their own order. */
  function Import(s: FormState, imported: seq<Task>, outcome: TrainOutcome, now: string): (t: FormState)
    ensures t.tasks == imported + s.tasks
    ensures t.importSuccess == Some(|imported|)
    ensures t.activeTab == EstimateTab
    ensures |imported| + |s.tasks| >= MinTrainingTasks && outcome.Trained? ==>
      t.model == Some(outcome.handle) && t.stats.trainedOn == |imported| + |s.tasks|
    ensures |imported| + |s.tasks| < MinTrainingTasks ==> t.model == s.model && t.stats == s.stats
    ensures t.manualPoints == s.manualPoints && t.title == s.title && t.description == s.description
    ensures !outcome.Trained? ==> t.model == s.model && t.stats == s.stats
    ensures |imported| + |s.tasks| >= MinTrainingTasks ==> !t.isModelLoading
    ensures |imported| + |s.tasks| < MinTrainingTasks ==> t.isModelLoading == s.isModelLoading
    ensures t.(model := s.model, stats := s.stats, isModelLoading := s.isModelLoading)
      == s.(tasks := imported + s.tasks, importSuccess := Some(|imported|), activeTab := EstimateTab)
  {
    var updated := imported + s.tasks;
    var trained := RetrainIfEnough(s.(tasks := updated, importSuccess := Some(|imported|)), updated, outcome, now);
    trained.(activeTab := EstimateTab)
  }

  // ---------------------------------------------------------------------
  // The form over a sequence of user actions

  /** One action on the form, with whatever the outside world answered. */
  datatype Event =
    | EditTitle(title: string)
    | EditDescription(description: string)
    | EditTaskType(taskType: string)
    | PickManual(points: int)
    | RunEstimate
    | RequestAi(model: string)
    | AiAnswered(response: AiResponse)
    | RetryAi
    | SaveTask(clock: Clock, outcome: TrainOutcome)
    | ImportTasks(imported: seq<Task>, outcome: TrainOutcome, now: string)
    | TrainNow(outcome: TrainOutcome, now: string)
    | ClearForm

  /** The estimators the form consults. */
  datatype Estimators = Estimators(rule: (string, string) -> int, predict: (ModelHandle, string, string) -> Prediction)

  /** One action; only saving and importing touch the history, and only they and training touch the model. */
  function Step(s: FormState, env: Estimators, e: Event): (t: FormState)
    ensures |t.tasks| >= |s.tasks|
    ensures !(e.SaveTask? || e.ImportTasks?) ==> t.tasks == s.tasks
    ensures !(e.SaveTask? || e.ImportTasks? || e.TrainNow?) ==> t.model == s.model
  {
    match e
    case EditTitle(v) => s.(title := v)
    case EditDescription(v) => s.(description := v)
    case EditTaskType(v) => s.(taskType := v)
    case PickManual(v) => s.(manualPoints := Some(v))
    case RunEstimate => Estimate(s, env.rule, env.predict)
    case RequestAi(m) => StartAi(s, m)
    case AiAnswered(r) => ResolveAi(s, r)
    case RetryAi => Retry(s)
    case SaveTask(c, o) => Save(s, c, o)
    case ImportTasks(ts, o, now) => Import(s, ts, o, now)
    case TrainNow(o, now) => HandleTrainModel(s, o, now)
    case ClearForm => ResetForm(s)
  }

  /** The actions in order; without a save or an import the history stays as it was. */
  function Run(s: FormState, env: Estimators, events: seq<Event>): (t: FormState)
    ensures |t.tasks| >= |s.tasks|
    ensures (forall i :: 0 <= i < |events| ==> !events[i].SaveTask? && !events[i].ImportTasks?) ==> t.tasks == s.tasks
    decreases |events|
  {
    if |events| == 0 then s else Run(Step(s, env, events[0]), env, events[1..])
  }

  /** The proposal, when there is one, is on the scale. */
  predicate ProposalOnScale(s: FormState) {
    s.manualPoints.None? || IsPoint(s.manualPoints.value)
  }

  /** Both estimators land on the scale; the model may also answer 0 ("no estimate"). */
  ghost predicate EstimatorsOnScale(env: Estimators) {
    && (forall d, k :: IsPoint(env.rule(d, k)))
    && (forall m, d, k :: env.predict(m, d, k).Predicted? ==>
          env.predict(m, d, k).points == 0 || IsPoint(env.predict(m, d, k).points))
  }

  /** The answer of the hosted model, if it is a success, carries points on the scale. */
  predicate AnswerOnScale(e: Event) {
    && (e.PickManual? ==> IsPoint(e.points))
    && (e.AiAnswered? && e.response.Answered? && IsOk(e.response.status) && e.response.points.Some? ==>
          IsPoint(e.response.points.value))
  }

  /** One step keeps the proposal on the scale. */
  lemma StepKeepsProposalOnScale(s: FormState, env: Estimators, e: Event)
    requires ProposalOnScale(s) && EstimatorsOnScale(env) && AnswerOnScale(e)
    ensures ProposalOnScale(Step(s, env, e))
  {
    if e.RunEstimate? && s.title != "" && s.description != "" && s.model.Some? {
      var prediction := env.predict(s.model.value, s.description, s.taskType);
      assert IsPoint(env.rule(s.description, s.taskType));
      if prediction.Predicted? && prediction.points != 0 {
        assert IsPoint(prediction.points);
      }
    } else if e.RunEstimate? && s.title != "" && s.description != "" {
      assert IsPoint(env.rule(s.description, s.taskType));
    } else if e.SaveTask? && CanSave(s) {
      var updated := [NewTask(s, e.clock)] + s.tasks;
      assert ProposalOnScale(ResetForm(s.(tasks := updated)));
    }
  }

  /**
   * Whatever the user does, with estimators and answers on the scale, the
   * proposed points are always on the scale.
   */
  lemma {:induction false} RunKeepsProposalOnScale(s: FormState, env: Estimators, events: seq<Event>)
    requires ProposalOnScale(s) && EstimatorsOnScale(env)
    requires forall i :: 0 <= i < |events| ==> AnswerOnScale(events[i])
    ensures ProposalOnScale(Run(s, env, events))
    decreases |events|
  {
    if |events| > 0 {
      StepKeepsProposalOnScale(s, env, events[0]);
      RunKeepsProposalOnScale(Step(s, env, events[0]), env, events[1..]);
    }
  }

  /** `older` is what `newer` ends with: the history only grew at the front. */
  predicate GrewInFront(newer: seq<Task>, older: seq<Task>) {
    |older| <= |newer| && newer[|newer| - |older|..] == older
  }

  lemma GrewInFrontTransitive(a: seq<Task>, b: seq<Task>, c: seq<Task>)
    requires GrewInFront(a, b) && GrewInFront(b, c)
    ensures GrewInFront(a, c)
  {
    assert a[|a| - |c|..] == a[|a| - |b|..][|b| - |c|..];
  }

  /** Every action keeps the history, adding tasks only in front of it. */
  lemma StepKeepsHistory(s: FormState, env: Estimators, e: Event)
    ensures GrewInFront(Step(s, env, e).tasks, s.tasks)
  {
    var t := Step(s, env, e);
    match e
    case SaveTask(c, o) =>
      if CanSave(s) {
        assert t.tasks[1..] == s.tasks;
      }
    case ImportTasks(ts, o, now) =>
      assert t.tasks == ts + s.tasks;
      assert t.tasks[|ts|..] == s.tasks;
    case TrainNow(o, now) =>
    case _ =>
      assert t.tasks == s.tasks;
      assert t.tasks[0..] == t.tasks;
  }

  /** No action loses or reorders a task of the history: new tasks only go in front. */
  lemma {:induction false} RunKeepsHistory(s: FormState, env: Estimators, events: seq<Event>)
    ensures GrewInFront(Run(s, env, events).tasks, s.tasks)
    decreases |events|
  {
    if |events| == 0 {
      assert s.tasks[0..] == s.tasks;
    } else {
      var s1 := Step(s, env, events[0]);
      StepKeepsHistory(s, env, events[0]);
      RunKeepsHistory(s1, env, events[1..]);
      GrewInFrontTransitive(Run(s1, env, events[1..]).tasks, s1.tasks, s.tasks);
    }
  }
}

=== FILE: text.dfy ===
/**
 * Character-level stand-ins for the string and regular-expression operations
 * the estimator uses: `toLowerCase`, `includes`, `split(/\s+/)`,
 * `split(/[.!?]+/)`, `trim`, `match(/\d+/)` and `parseInt(_, 10)`.
 * Only the ASCII behaviour of those operations is modelled.
 */
module Text {
  import opened Maybe

  // ---------------------------------------------------------------------
  // Character classes

  predicate IsDigit(c: char) {
    '0' <= c <= '9'
  }

  /** The ASCII characters matched by the regular-expression class `\s`. */
  predicate IsSpace(c: char) {
    c == ' ' || c == '\t' || c == '\n' || c == '\r' || c as int == 11 || c as int == 12
  }

  /** The characters of the class `[.!?]`. */
  predicate IsSentenceEnd(c: char) {
    c == '.' || c == '!' || c == '?'
  }

  predicate IsLowerLetter(c: char) {
    'a' <= c <= 'z'
  }

  predicate AllDigits(s: string) {
    forall i :: 0 <= i < |s| ==> IsDigit(s[i])
  }

  // ---------------------------------------------------------------------
  // Case folding

  function LowerChar(c: char): (r: char)
    ensures 'A' <= c <= 'Z' ==> 'a' <= r <= 'z' && r as int - c as int == 32
    ensures !('A' <= c <= 'Z') ==> r == c
  {
    if 'A' <= c <= 'Z' then (c as int + 32) as char else c
  }

  /** `toLowerCase` restricted to ASCII letters. */
  function Lower(s: string): (r: string)
    ensures |r| == |s|
    ensures forall i :: 0 <= i < |s| ==> r[i] == LowerChar(s[i])
  {
    if |s| == 0 then "" else [LowerChar(s[0])] + Lower(s[1..])
  }

  // ---------------------------------------------------------------------
  // Substrings

  /** `s.includes(p)`: `p` occurs in `s` at some position. */
  predicate Contains(s: string, p: string) {
    exists i :: 0 <= i <= |s| && OccursAt(s, p, i)
  }

  /** `p` occurs in `s` starting at position `i`. */
  predicate OccursAt(s: string, p: string, i: nat) {
    i + |p| <= |s| && s[i..i + |p|] == p
  }

  /** `s.endsWith(p)`. */
  predicate EndsWith(s: string, p: string) {
    |p| <= |s| && s[|s| - |p|..] == p
  }

  /** Number of entries of `keywords` that occur in `text`. */
  function CountPresent(text: string, keywords: seq<string>): (n: nat)
    ensures n <= |keywords|
  {
    if |keywords| == 0 then 0
    else (if Contains(text, keywords[0]) then 1 else 0) + CountPresent(text, keywords[1..])
  }

  /** The count is zero exactly when no keyword occurs. */
  lemma {:induction false} CountPresentZero(text: string, keywords: seq<string>)
    ensures CountPresent(text, keywords) == 0 <==> forall k :: 0 <= k < |keywords| ==> !Contains(text, keywords[k])
  {
    if |keywords| > 0 {
      CountPresentZero(text, keywords[1..]);
      assert forall k :: 1 <= k < |keywords| ==> keywords[k] == keywords[1..][k - 1];
    }
  }

  /** The count is full exactly when every keyword occurs. */
  lemma {:induction false} CountPresentAll(text: string, keywords: seq<string>)
    ensures CountPresent(text, keywords) == |keywords| <==> forall k :: 0 <= k < |keywords| ==> Contains(text, keywords[k])
  {
    if |keywords| > 0 {
      CountPresentAll(text, keywords[1..]);
      assert forall k :: 1 <= k < |keywords| ==> keywords[k] == keywords[1..][k - 1];
    }
  }

  // ---------------------------------------------------------------------
  // Splitting on runs of separators

  /**
   * `s.split(re)` for a regular expression `re` that matches one or more
   * separator characters: every maximal run of separators cuts the string,
   * a leading or trailing run yields an empty piece, and "" yields [""].
   */
  function SplitRuns(s: string, sep: char -> bool): (pieces: seq<string>)
    ensures |pieces| >= 1
    ensures forall k, i :: 0 <= k < |pieces| && 0 <= i < |pieces[k]| ==> !sep(pieces[k][i])
    decreases |s|
  {
    if |s| == 0 then [""]
    else if sep(s[0]) then [""] + SplitRuns(SkipRun(s, sep), sep)
    else
      var rest := SplitRuns(s[1..], sep);
      [[s[0]] + rest[0]] + rest[1..]
  }

  /** Drops the run of separators that `s` starts with. */
  function SkipRun(s: string, sep: char -> bool): (r: string)
    ensures |r| <= |s| && r == s[|s| - |r|..]
    ensures |r| == 0 || !sep(r[0])
    ensures forall i :: 0 <= i < |s| - |r| ==> sep(s[i])
    decreases |s|
  {
    if |s| > 0 && sep(s[0]) then SkipRun(s[1..], sep) else s
  }

  /** Every character of `s` is a separator. */
  predicate AllSeparators(s: string, sep: char -> bool) {
    forall i :: 0 <= i < |s| ==> sep(s[i])
  }

  /** The pieces glued back together, with `runs[k]` between piece `k` and piece `k + 1`. */
  function Join(pieces: seq<string>, runs: seq<string>): string
    requires |pieces| == |runs| + 1
    decreases |runs|
  {
    if |runs| == 0 then pieces[0] else pieces[0] + runs[0] + Join(pieces[1..], runs[1..])
  }

  /** The run of separators that `s` starts with; `SkipRun` gives what follows it. */
  function LeadingRun(s: string, sep: char -> bool): (run: string)
    ensures run + SkipRun(s, sep) == s
    ensures AllSeparators(run, sep)
    ensures |s| > 0 && sep(s[0]) ==> |run| > 0
  {
    var r := SkipRun(s, sep);
    assert s[..|s| - |r|] + s[|s| - |r|..] == s;
    s[..|s| - |r|]
  }

  /** The separator runs that `SplitRuns` cuts at, in order. */
  function SeparatorRuns(s: string, sep: char -> bool): (runs: seq<string>)
    ensures |runs| == |SplitRuns(s, sep)| - 1
    ensures forall k :: 0 <= k < |runs| ==> |runs[k]| > 0 && AllSeparators(runs[k], sep)
    decreases |s|
  {
    if |s| == 0 then []
    else if sep(s[0]) then [LeadingRun(s, sep)] + SeparatorRuns(SkipRun(s, sep), sep)
    else SeparatorRuns(s[1..], sep)
  }

  /** Gluing a first piece and a first run in front of the rest. */
  lemma JoinCons(first: string, run: string, pieces: seq<string>, runs: seq<string>)
    requires |pieces| == |runs| + 1
    ensures Join([first] + pieces, [run] + runs) == first + run + Join(pieces, runs)
  {
    assert ([first] + pieces)[1..] == pieces;
    assert ([run] + runs)[1..] == runs;
  }

  /** Prefixing the first piece prefixes the joined string. */
  lemma JoinExtendFirst(c: char, pieces: seq<string>, runs: seq<string>)
    requires |pieces| == |runs| + 1
    ensures Join([[c] + pieces[0]] + pieces[1..], runs) == [c] + Join(pieces, runs)
  {
    if |runs| > 0 {
      assert pieces == [pieces[0]] + pieces[1..];
      assert runs == [runs[0]] + runs[1..];
      var tail := Join(pieces[1..], runs[1..]);
      JoinCons([c] + pieces[0], runs[0], pieces[1..], runs[1..]);
      JoinCons(pieces[0], runs[0], pieces[1..], runs[1..]);
      assert [c] + pieces[0] + runs[0] + tail == [c] + (pieces[0] + runs[0] + tail);
    }
  }

  /** A leading run of separators becomes an empty first piece and the first run. */
  lemma RebuildAfterLeadingRun(s: string, sep: char -> bool)
    requires |s| > 0 && sep(s[0])
    requires Join(SplitRuns(SkipRun(s, sep), sep), SeparatorRuns(SkipRun(s, sep), sep)) == SkipRun(s, sep)
    ensures Join(SplitRuns(s, sep), SeparatorRuns(s, sep)) == s
  {
    var r := SkipRun(s, sep);
    var run := LeadingRun(s, sep);
    assert SplitRuns(s, sep) == [""] + SplitRuns(r, sep);
    assert SeparatorRuns(s, sep) == [run] + SeparatorRuns(r, sep);
    JoinCons("", run, SplitRuns(r, sep), SeparatorRuns(r, sep));
    assert "" + run == run;
  }

  /** A leading non-separator joins the first piece. */
  lemma RebuildAfterLeadingChar(s: string, sep: char -> bool)
    requires |s| > 0 && !sep(s[0])
    requires Join(SplitRuns(s[1..], sep), SeparatorRuns(s[1..], sep)) == s[1..]
    ensures Join(SplitRuns(s, sep), SeparatorRuns(s, sep)) == s
  {
    var rest := SplitRuns(s[1..], sep);
    assert SplitRuns(s, sep) == [[s[0]] + rest[0]] + rest[1..];
    assert SeparatorRuns(s, sep) == SeparatorRuns(s[1..], sep);
    JoinExtendFirst(s[0], rest, SeparatorRuns(s[1..], sep));
    assert s == [s[0]] + s[1..];
  }

  /**
   * Splitting loses nothing: the pieces, glued back with the non-empty
   * separator runs between them, give the original string.
   */
  lemma {:induction false} SplitRunsRebuilds(s: string, sep: char -> bool)
    ensures Join(SplitRuns(s, sep), SeparatorRuns(s, sep)) == s
    decreases |s|
  {
    if |s| == 0 {
    } else if sep(s[0]) {
      SplitRunsRebuilds(SkipRun(s, sep), sep);
      RebuildAfterLeadingRun(s, sep);
    } else {
      SplitRunsRebuilds(s[1..], sep);
      RebuildAfterLeadingChar(s, sep);
    }
  }

  /** `s.split(/\s+/)`. */
  function Words(s: string): (words: seq<string>)
    ensures |words| >= 1
    ensures forall k, i :: 0 <= k < |words| && 0 <= i < |words[k]| ==> !IsSpace(words[k][i])
  {
    SplitRuns(s, IsSpace)
  }

  /** The words and the whitespace runs between them give back the text. */
  lemma WordsRebuild(s: string)
    ensures Join(Words(s), SeparatorRuns(s, IsSpace)) == s
  {
    SplitRunsRebuilds(s, IsSpace);
  }

  /** A string without separators is not cut at all. */
  lemma {:induction false} SplitRunsWithoutSeparator(s: string, sep: char -> bool)
    requires forall i :: 0 <= i < |s| ==> !sep(s[i])
    ensures SplitRuns(s, sep) == [s]
  {
    if |s| > 0 {
      SplitRunsWithoutSeparator(s[1..], sep);
      assert [s[0]] + s[1..] == s;
    }
  }

  /** `s.trim().length > 0`: the piece holds a non-whitespace character. */
  predicate HasContent(s: string) {
    exists i :: 0 <= i < |s| && !IsSpace(s[i])
  }

  /** The pieces of `pieces` that survive `.filter((s) => s.trim().length > 0)`. */
  function KeepNonBlank(pieces: seq<string>): (r: seq<string>)
    ensures |r| <= |pieces|
    ensures forall k :: 0 <= k < |r| ==> HasContent(r[k])
  {
    if |pieces| == 0 then []
    else if HasContent(pieces[0]) then [pieces[0]] + KeepNonBlank(pieces[1..])
    else KeepNonBlank(pieces[1..])
  }

  /** The kept pieces are exactly the pieces with content. */
  lemma {:induction false} KeepNonBlankMembers(pieces: seq<string>)
    ensures forall x :: x in KeepNonBlank(pieces) <==> x in pieces && HasContent(x)
  {
    if |pieces| > 0 {
      KeepNonBlankMembers(pieces[1..]);
      assert pieces == [pieces[0]] + pieces[1..];
    }
  }

  /**
   * The filter keeps order: it works piece by piece, keeping a piece
   * exactly when it has content.
   */
  lemma {:induction false} KeepNonBlankAppend(a: seq<string>, b: seq<string>)
    ensures KeepNonBlank(a + b) == KeepNonBlank(a) + KeepNonBlank(b)
  {
    if |a| == 0 {
      assert a + b == b;
    } else {
      assert (a + b)[0] == a[0];
      assert (a + b)[1..] == a[1..] + b;
      KeepNonBlankAppend(a[1..], b);
    }
  }

  /** A single piece is kept exactly when it has content. */
  lemma KeepNonBlankSingle(x: string)
    ensures KeepNonBlank([x]) == (if HasContent(x) then [x] else [])
  {
    assert [x][1..] == [];
  }

  /** `s.split(/[.!?]+/).filter((s) => s.trim().length > 0)`. */
  function Sentences(s: string): (sentences: seq<string>)
    ensures forall k :: 0 <= k < |sentences| ==> HasContent(sentences[k])
    ensures forall k, i :: 0 <= k < |sentences| && 0 <= i < |sentences[k]| ==> !IsSentenceEnd(sentences[k][i])
  {
    var pieces := SplitRuns(s, IsSentenceEnd);
    KeepNonBlankMembers(pieces);
    KeepNonBlank(pieces)
  }

  /** Text with content and no `.`, `!` or `?` is one sentence. */
  lemma OneSentence(s: string)
    requires HasContent(s)
    requires forall i :: 0 <= i < |s| ==> !IsSentenceEnd(s[i])
    ensures Sentences(s) == [s]
  {
    SplitRunsWithoutSeparator(s, IsSentenceEnd);
    KeepNonBlankSingle(s);
  }

  // ---------------------------------------------------------------------
  // Decimal numbers

  /** The longest prefix of `s` made of digits. */
  function DigitPrefix(s: string): (d: string)
    ensures |d| <= |s| && d == s[..|d|]
    ensures AllDigits(d)
    ensures |d| == |s| || !IsDigit(s[|d|])
    ensures AllDigits(s) ==> d == s
  {
    if |s| > 0 && IsDigit(s[0]) then [s[0]] + DigitPrefix(s[1..]) else ""
  }

  /** Position of the first digit of `s`, if any. */
  function FirstDigitAt(s: string): (r: Option<nat>)
    ensures r.None? ==> forall j :: 0 <= j < |s| ==> !IsDigit(s[j])
    ensures r.Some? ==> r.value < |s| && IsDigit(s[r.value])
    ensures r.Some? ==> forall j :: 0 <= j < r.value ==> !IsDigit(s[j])
  {
    if |s| == 0 then None
    else if IsDigit(s[0]) then Some(0)
    else
      match FirstDigitAt(s[1..])
      case None => None
      case Some(i) => Some(i + 1)
  }

  /**
   * `s.match(/\d+/)?.[0]`: the leftmost maximal run of digits, which is
   * never empty, starts at the first digit and stops at the next non-digit.
   */
  function FirstDigitRun(s: string): (r: Option<string>)
    ensures r.None? <==> forall j :: 0 <= j < |s| ==> !IsDigit(s[j])
    ensures r.Some? ==> |r.value| > 0 && AllDigits(r.value)
  {
    match FirstDigitAt(s)
    case None => None
    case Some(i) => Some(DigitPrefix(s[i..]))
  }

  function DigitValue(c: char): (v: nat)
    requires IsDigit(c)
    ensures v <= 9
  {
    c as int - '0' as int
  }

  function DigitChar(v: nat): (c: char)
    requires v <= 9
    ensures IsDigit(c) && DigitValue(c) == v
  {
    ('0' as int + v) as char
  }

  /** `Number.parseInt(d, 10)` of a string of digits, as an exact integer. */
  function ParseDecimal(d: string): nat
    requires AllDigits(d)
  {
    if |d| == 0 then 0 else ParseDecimal(d[..|d| - 1]) * 10 + DigitValue(d[|d| - 1])
  }

  /** The decimal rendering of `n`, without leading zeros. */
  function Decimal(n: nat): (d: string)
    ensures |d| > 0 && AllDigits(d)
  {
    if n < 10 then [DigitChar(n)] else Decimal(n / 10) + [DigitChar(n % 10)]
  }

  /** Parsing a rendered number gives the number back. */
  lemma {:induction false} ParseDecimalOfDecimal(n: nat)
    ensures ParseDecimal(Decimal(n)) == n
  {
    var d := Decimal(n);
    if n >= 10 {
      assert d[..|d| - 1] == Decimal(n / 10);
      ParseDecimalOfDecimal(n / 10);
    } else {
      assert d[..|d| - 1] == "";
    }
  }

  /** A string of digits is its own first digit run. */
  lemma AllDigitsIsFirstRun(d: string)
    requires |d| > 0 && AllDigits(d)
    ensures FirstDigitRun(d) == Some(d)
  {
    assert FirstDigitAt(d) == Some(0);
    assert d[0..] == d;
  }
}
